=== FILE: README.md ===
# WooCommerce and Zendesk tool servers, modelled in Dafny

This project models the tool handlers of a small Model Context Protocol
server. An assistant calls the handlers by name with a mapping of arguments,
and they answer with text blocks built from REST responses:

- **WooCommerce analytics** (`server.py`). `get_products` and `get_orders`
  project the store's records onto a few fields. `analyze_sales_trends`
  guards the aggregation of recent completed orders.
  `get_low_stock_products` pages through every product, keeps those at or
  under a stock threshold, and sorts them by stock quantity. A store error
  while paging is not reported: the loop stops and reports what the earlier
  pages held, so a failure on the first page reads as an empty report. Any
  other name is answered with "Unknown tool: <name>". The store client
  `wc_get` turns every failure into `{"error": <text>}`.
- **Zendesk Support** (`zendesk_tools.py`). Five ticket and user tools sit on
  a request helper. The helper authenticates with HTTP Basic (section 2 of
  RFC 7617), using the base 64 encoding of section 4 of RFC 4648 over the
  UTF-8 octets of section 3 of RFC 3629. It normalises every outcome to a
  JSON value: `{"success": true}` for a 204, the decoded body for any other
  delivered response, and for a failure `{"error": ...}` holding the error
  body's `description` or else the exception text.
- **Zendesk Sell** (`zendesk_sell_tools.py`). There are search and get-by-id
  tools for leads, contacts and deals. Ten further tools each read one field
  of a contact, first from its standard fields and then from its custom
  fields. They use a Bearer-token helper whose error detail is the body's
  `errors`.
- **`.env` loading.** Both ticketing modules run the same hand-written
  `.env` reader at import time.

The model is pure: there is no I/O, and every handler is a function.

- The HTTP library becomes an `Oracle`, a function from the request that
  would be sent to its `Outcome`.
- `Outcome` is either no response (with the exception text), or a response
  with its status, its decoded body if it decodes, and the texts of the
  exceptions `raise_for_status` and JSON decoding would raise.
- Each handler returns a `Run`: its `ToolResult` together with the list of
  requests it sent. So "no request is made" is a statement about that list.
- A `ToolResult` is one of:
  - the text blocks;
  - a Python exception that escapes the handler (`TypeError` or
    `AttributeError`, for JSON of an unexpected shape);
  - `Unfinished`, for a product scan still going after the pages the model
    allows.
- Decoded JSON is `JsonValue.Value`. The Python operations the handlers apply
  to it are written out: truthiness, `in`, `.get`, indexing, iteration, `len`,
  `<=` and `str()`.
- The process environment is a map. The `.env` file is given as its lines, or
  as absent.
- The helpers' module-level credentials are read with `Getenv` from the
  environment that `LoadEnv` leaves.

Modules:

| module | file | models |
|---|---|---|
| `Wrappers` | wrappers.dfy | `Option` and `Result` |
| `Text` | text.dfy | `strip`, `lstrip('/')`, the first `=` of `split('=', 1)`, decimal `str(int)` |
| `JsonValue` | json_value.dfy | decoded JSON and Python's operations on it |
| `Seqs` | seqs.dfy | filtering, concatenation, mapping that stops at the first exception |
| `Upstream` | upstream.dfy | requests, outcomes, and both normalisations of an outcome |
| `Tools` | tools.dfy | text blocks, tool results, runs |
| `Store` | store.dfy | `wc_get` and the `"error" in v` guard |
| `StableSort` | stable_sort.dfy | a sort by integer key that keeps the order of equal keys (`list.sort`) |
| `LowStock` | low_stock.dfy | the pagination loop, the low-stock filter, the report |
| `WooCommerce` | woocommerce.dfy | `call_tool` and `list_tools` of the analytics server |
| `Bytes`, `Utf8`, `Base64` | bytes.dfy, utf8.dfy, base64.dfy | `str.encode()` and `base64.b64encode` |
| `DotEnv` | dotenv.dfy | `load_env_manually` and `os.getenv` |
| `Zendesk` | zendesk.dfy | Zendesk Support auth, request helper, handler, tool names |
| `ZendeskSell` | zendesk_sell.dfy | Zendesk Sell auth, request helper, handler, tool names |

The UTF-8 and base 64 encoders come with decoders written from the same RFCs.
These decoders are reference definitions: the round-trip lemmas prove that
the server can recover the configured credentials from the `Authorization`
header. The base 64 decoder is strict in the sense of section 3.5 of RFC
4648: it refuses a last group whose unused bits are not zero. Each octet
sequence therefore has exactly one accepted text, its encoding.

## Model

| member | source | states |
|---|---|---|
| `Text.Strip` | zendesk_tools.py:15 | the stripped line is a slice of the line, with only whitespace cut off either end and no whitespace left at its ends |
| `Text.TrimLeading` | zendesk_tools.py:38 | `endpoint.lstrip('/')` is a suffix of the endpoint; everything removed is `/`, and the rest does not start with `/` |
| `Text.FirstIndex` | zendesk_tools.py:18-19 | there is no index exactly when the character does not occur; otherwise the index holds the character and no earlier position does (the split point of `split('=', 1)`) |
| `Text.IntToDecimal` | zendesk_tools.py:82 | the f-string text of an integer id is a leading `-` exactly for negatives, followed by decimal digits whose value is the magnitude, with no leading zero (the text is canonical) |
| `JsonValue.Elements` | server.py:59 | iterating fails exactly on scalars; a list yields its items; a dict yields one non-object per key; a string yields one non-object per character |
| `JsonValue.Len` | server.py:100 | `len` fails exactly on scalars, and otherwise counts what iteration yields |
| `Seqs.MapAll` | server.py:58-67 | the loop succeeds exactly when every record projects; it yields one row per record in order; on failure it raises the exception of the first record that fails |
| `Seqs.FilterMembers` | server.py:182-193 | an item survives the filter exactly when it was in the input and passes the test |
| `Seqs.ConcatAppend` | server.py:176 | extending page by page concatenates the pages in order |
| `Upstream.StoreResult` | server.py:30-37 | `wc_get` returns the decoded body of a non-error response, and `{"error": <text of the first exception>}` for every failure |
| `Upstream.HelperResult` | zendesk_tools.py:49-66 | a 204 becomes `{"success": true}`; another delivered body is returned unchanged; a failure becomes `{"error": detail}`, where the detail is the error body's field when that body is an object holding it, and the exception text otherwise |
| `Store.StoreGet` | server.py:30-37 | `wc_get` sends exactly one GET for the endpoint and query; it yields the body when one is delivered and the error object of the exception text otherwise |
| `Store.ErrorGuard` | server.py:54-55 | an object is stopped exactly when it has an `error` key, and answered "Error: <that field>"; a list is stopped exactly when it contains the string "error", and then raises; a string is stopped and raises `TypeError` exactly when "error" occurs in it, and passes otherwise; a scalar raises |
| `Store.FailureReported` | server.py:30-55 | every failure of the store request reaches the assistant as "Error: <exception text>" |
| `WooCommerce.ProductsParams` | server.py:44-50 | the product query has `per_page` (10 unless given), and has `category` exactly when the argument is truthy, with its value; it has no other key |
| `WooCommerce.OrdersParams` | server.py:74-84 | the order query has `per_page` (10 unless given) and `status` ("any" unless given); it has `after`/`before` exactly when they are truthy, with their values; it has no other key |
| `WooCommerce.ProductSummary` | server.py:58-67 | a product projects exactly when it is an object; the row has exactly the six keys, each the product's field or None, with `total_sales` defaulting to 0 |
| `WooCommerce.OrderSummary` | server.py:92-101 | an order projects exactly when it is an object whose `line_items` has a length; the row has exactly the six keys, and `line_items` is that count (0 when absent) |
| `WooCommerce.ListingOutcome` | server.py:52-72 | a listing keeps the store's one request; an error object is answered "Error: <message>"; a list without "error" whose records all project is answered with one row per record, in order |
| `WooCommerce.ProductsRequest` | server.py:44-52 | `get_products` sends exactly one request, for `products` with its query |
| `WooCommerce.OrdersRequest` | server.py:74-86 | `get_orders` sends exactly one request, for `orders` with its query |
| `WooCommerce.TrendGuards` | server.py:108-136 | a window that cannot be computed raises before any request; otherwise the tool sends one query for completed orders in the window; a failure is reported as "Error: <text>", an empty list as "No orders found in date range", and a non-empty list of order objects reaches the aggregation, while nothing else does |
| `WooCommerce.LowStockReport` | server.py:164-205 | a finished report lists exactly the kept products, projected; they are sorted by stock quantity, are a permutation of the kept ones, and equal quantities stay in fetched order |
| `WooCommerce.AdvertisedNamesDispatched` | server.py:40-288 | a name is advertised by `list_tools` exactly when `call_tool` does not answer it with "Unknown tool: <name>" and no request |
| `WooCommerce.FailedFirstPageReportsNothing` | server.py:164-205 | when the store fails on the first page, the tool reports an empty list of low-stock products with the threshold, after that one request, rather than an error |
| `LowStock.PageStep` | server.py:173-178 | a list, object or string page stops the loop without appending exactly when it is empty or contains `"error"` (an element of a list, a key of an object, a substring of a string); a number, boolean or None raises `TypeError`; a short page is appended and ends the loop; a full page is appended and the loop goes on |
| `LowStock.ScanFrom` | server.py:168-179 | the loop sends no more requests than its budget |
| `LowStock.ScanRequests` | server.py:168-179 | the loop asks for pages 1, 2, ... in order; it is cut off only after using its whole budget on full pages; it raises only on a page whose step raised |
| `LowStock.ScanStopsAtFirstShortPage` | server.py:172-179 | when the first page that is not full is within reach, the loop sends one request per page up to and including it, and accumulates the concatenation of what those pages contribute |
| `LowStock.ScanNeverEndsOnFullPages` | server.py:172-179 | while every page is full the loop keeps going, and it is cut off with the whole budget spent |
| `LowStock.ResumeAfterFullPage` | server.py:176-179 | after a full page has been appended and requested, the rest of the scan from the next page completes the whole scan |
| `LowStock.ResumeAtLastPage` | server.py:174-178 | a page that is not full is the last one requested; it is appended only when it is short and not empty, and it ends the scan, in an exception if its step raised |
| `LowStock.CollectProducts` | server.py:168-179 | the `while True` loop, written with its `break`s, accumulates exactly the products, requests and ending of the recursive scan |
| `LowStock.LowStockTest` | server.py:184-185 | the test is defined exactly for objects whose stock quantity is None or comparable with the threshold; a product that is not an object raises `AttributeError` (`p.get`), and an incomparable quantity raises `TypeError` (`<=`) |
| `LowStock.LowStockMeaning` | server.py:184-185 | a product is kept exactly when it is an object with a numeric stock quantity, and that quantity is at most a numeric threshold |
| `LowStock.EntryOf` | server.py:186-193 | a kept product's entry is keyed by its stock quantity and has exactly the six reported fields, each the product's field or None |
| `LowStock.SelectLowStock` | server.py:182-193 | the filter succeeds exactly when every product can be tested; it then yields the entries of the kept products in fetched order; on failure it raises the exception of the first product that cannot be tested, every product before it having been tested |
| `LowStock.Report` | server.py:198-204 | the report has exactly its three keys; the count equals the number of listed products, the threshold is echoed, and the products appear in the given order |
| `StableSort.SortByKey` | server.py:196 | the sorted list is ordered by stock quantity and is a permutation of its input |
| `StableSort.SortStable` | server.py:196 | for every quantity, the entries with that quantity appear in the same relative order before and after sorting |
| `StableSort.SortIsUnique` | server.py:196 | any ordered list that keeps every quantity's entries in input order is the sorted list, so the sort is `list.sort`'s result |
| `Utf8.EncodeChar` | zendesk_tools.py:33 | a character takes one to four octets; it takes one exactly when it is ASCII; every octet after the first is a continuation octet |
| `Utf8.DecodeEncode` | zendesk_tools.py:33 | decoding the octets of `auth_str.encode()` gives back the string |
| `Base64.DecodeEncode` | zendesk_tools.py:33 | decoding the output of `base64.b64encode` gives back the octets |
| `Base64.DecodeIffEncode` | zendesk_tools.py:33 | a text decodes to some octets exactly when it is their `b64encode` text: the decoder rejects non-zero pad bits, so every octet sequence has one encoding |
| `Base64.EncodedLength` | zendesk_tools.py:33 | every started group of three octets takes four characters |
| `DotEnv.ParseLine` | zendesk_tools.py:15-19 | a line is skipped exactly when it strips to empty, starts with `#`, or has no `=`; otherwise its key and value are the stripped text before and after the first `=` |
| `DotEnv.LoadEnv` | zendesk_tools.py:10-12 | a missing file leaves the environment unchanged |
| `DotEnv.LoadedIff` | zendesk_tools.py:14-20 | loading runs to the end exactly when no line sets a name the environment refuses |
| `DotEnv.LoadOverlay` | zendesk_tools.py:14-20 | after a full load, every key some line assigns holds the value of the last such line, and every other key is as it was |
| `Zendesk.Authorization` | zendesk_tools.py:29-34 | there is no header exactly when the email or the token is unset or empty; otherwise the header starts with `Basic ` |
| `Zendesk.CredentialsRecoverable` | zendesk_tools.py:32-34 | the text after `Basic ` decodes as base 64, and then as UTF-8, to exactly `email/token:token`, and no other text decodes to the same octets |
| `Zendesk.Url` | zendesk_tools.py:38 | the URL is the API root of the fixed domain followed by the endpoint without its leading slashes |
| `Zendesk.ZendeskRequest` | zendesk_tools.py:36-47 | with no credentials, the fixed error object and no request; otherwise exactly one request with the given method, query and body |
| `Zendesk.RequestOutcome` | zendesk_tools.py:36-66 | the request carries the header and a 30-second timeout; 204 gives success; a delivered body is returned; a failure's detail is the error body's `description` or else the exception text |
| `Zendesk.RequestsOnlyWhenComplete` | zendesk_tools.py:68-120 | a tool sends at most one request, and sends one exactly when its name is advertised, its required arguments are truthy and credentials are configured |
| `Zendesk.MissingArgumentRefused` | zendesk_tools.py:68-116 | a handled tool missing a required argument answers that argument's "Error: ... required" text |
| `Zendesk.Endpoints` | zendesk_tools.py:69-118 | each complete call's one request uses its path and verb, and its query or comment body, with `public` defaulting to true |
| `Zendesk.AdvertisedNamesHandled` | zendesk_tools.py:68-181 | a name is in the tool definitions exactly when the handler answers it with something other than an empty list |
| `ZendeskSell.Authorization` | zendesk_sell_tools.py:26-29 | there is no header exactly when the token is unset or empty; otherwise the header is `Bearer ` followed by the token |
| `ZendeskSell.Url` | zendesk_sell_tools.py:33 | the URL is the base URL, one `/`, and the endpoint without its leading slashes |
| `ZendeskSell.SellRequest` | zendesk_sell_tools.py:31-43 | with no token, the fixed error object and no request; otherwise exactly one request |
| `ZendeskSell.RequestOutcome` | zendesk_sell_tools.py:31-62 | the request carries `Bearer <token>` and a 30-second timeout; 204 gives success; a delivered body is returned; a failure's detail is the error body's `errors` or else the exception text |
| `ZendeskSell.FindField` | zendesk_sell_tools.py:117-122 | a name has no field exactly when no entry is named so; otherwise the field is that entry's |
| `ZendeskSell.FieldToolNamesMatch` | zendesk_sell_tools.py:104-231 | the field tools generated in the definitions are exactly those the handler dispatches, in the same order |
| `ZendeskSell.FieldReport` | zendesk_sell_tools.py:125-138 | a result containing "error" (a key of an object, an element of a list, a substring of a string) is passed through as JSON; any other list or string raises `AttributeError` and a scalar raises `TypeError`; for an object the value is the contact's standard field when truthy and else its custom field (or None), and Python raises when a level is not an object |
| `ZendeskSell.GroupsDisjoint` | zendesk_sell_tools.py:64-117 | no tool name belongs to two of the handler's groups, so the order of its branches does not matter |
| `ZendeskSell.RecordRequests` | zendesk_sell_tools.py:64-123 | a get-by-id or field tool with a falsy id answers "Error: <x>_id is required" without a request whether or not a token is configured; with a token, a search sends the non-None arguments as its query and a get-by-id or field tool with a truthy id fetches that one record |
| `ZendeskSell.AdvertisedNames` | zendesk_sell_tools.py:142-242 | the advertised names are the six record tools followed by the dispatched field tools |
| `ZendeskSell.HandledGroups` | zendesk_sell_tools.py:64-140 | the handler answers with something other than an empty list exactly for the names of its groups |
| `ZendeskSell.AdvertisedNamesHandled` | zendesk_sell_tools.py:64-242 | a name is in the tool definitions exactly when the handler answers it with something other than an empty list |

## Left out

- HTTP, the WooCommerce client library and `requests` are replaced by the
  oracle. URLs, headers, timeouts and queries are recorded in the request;
  the WooCommerce library's own base URL and consumer-key signing are not
  modelled.
- The sales aggregation (pandas, floats, dates) is not modelled. Past its
  guards, `analyze_sales_trends` yields an opaque `SalesSummary` of the order
  list.
- The clock is not modelled. The date window is a parameter that maps the
  `days` argument to the two ISO dates, or to the exception computing them
  raises: `TypeError` for a `days` that is not a number, and `OverflowError`
  for one reaching back before year 1.
- `json.dumps(..., indent=2)` formatting is not modelled: a block holds the
  value it would serialise.
- The MCP types, server start-up, `asyncio`, `main.py` and the connection
  test scripts are outside the core.
- `load_dotenv()` in `server.py` is a library call. The WooCommerce
  credentials it reads are configuration of the client library.
- Opening and reading the `.env` file is not modelled: the file is its
  sequence of lines, absent when the file does not exist. `load_env_manually`
  appears twice in the source and is modelled once. Assigning an empty name,
  or a name or value containing a NUL, raises in `os.environ`; the model ends
  such a load as `Aborted`, keeping the assignments made before it.
- JSON numbers are integers: floats are not modelled.
- `JsonValue.LessEq`: Python compares two strings or two lists
  lexicographically, but the model makes every comparison that is not
  between numbers raise `TypeError`. Stock quantities and thresholds are numbers in the store's
  schema.
- `WooCommerce.AnalyzeSalesTrends`: exceptions raised inside the aggregation
  are not modelled. Examples are `float()` of a non-numeric total and a date
  pandas cannot parse.
- `str()` of a list or dict id inserted into a path is a fixed placeholder,
  not Python's repr.
- Iterating a dict yields one placeholder per key rather than the keys
  themselves. Every handler that iterates a dict then fails on the first key
  (a string has no `.get`), so only their number matters.
- The arguments are assumed to be a dict. `arguments.get` on anything else
  is not modelled.
- Characters are Unicode scalar values. A lone surrogate, which `str.encode()`
  would refuse, cannot be represented.
- `LowStock.ScanFrom`: the source loops `while True` and need not end if the
  store keeps answering full pages. The model allows a number of pages given
  as a parameter and reports `Unfinished` when they run out.
- `ZendeskSell.SellRequest`: its contract does not restate the URL and
  headers; `ZendeskSell.RequestOutcome` states them for a configured token.
- `WooCommerce.ListingOutcome`: it does not describe which exception a list
  with an unprojectable record raises. `Seqs.MapAll` states that it is the
  first failing record's.

=== FILE: base64.dfy ===
/**
 The base 64 encoding of section 4 of RFC 4648, as `base64.b64encode`
 produces it: every three octets become four characters of the 64-letter
 alphabet, and a final group of one or two octets is padded with `=`.
 */
module Base64 {
  import opened Wrappers
  import opened Bytes

  /** A six-bit value. */
  type Sextet = n: int | 0 <= n < 64

  /** The alphabet of Table 1: A-Z, a-z, 0-9, `+`, `/`. */
  function Symbol(v: Sextet): char {
    if v < 26 then ('A' as int + v) as char
    else if v < 52 then ('a' as int + (v - 26)) as char
    else if v < 62 then ('0' as int + (v - 52)) as char
    else if v == 62 then '+'
    else '/'
  }

  /** The value a character of the alphabet stands for; padding and other characters have none. */
  function SymbolValue(c: char): (r: Option<Sextet>)
    ensures r.Some? ==> Symbol(r.value) == c
  {
    if 'A' <= c <= 'Z' then Some((c as int - 'A' as int))
    else if 'a' <= c <= 'z' then Some((c as int - 'a' as int) + 26)
    else if '0' <= c <= '9' then Some((c as int - '0' as int) + 52)
    else if c == '+' then Some(62)
    else if c == '/' then Some(63)
    else None
  }

  lemma SymbolValueOf(v: Sextet)
    ensures SymbolValue(Symbol(v)) == Some(v)
    ensures Symbol(v) != '='
  {
  }

  /** Three octets as four sextets, most significant bits first. */
  function Quad(b0: Byte, b1: Byte, b2: Byte): string {
    [Symbol(b0 / 4), Symbol((b0 % 4) * 16 + b1 / 16), Symbol((b1 % 16) * 4 + b2 / 64), Symbol(b2 % 64)]
  }

  /** A final group of one octet: two sextets, the second zero-filled, and two padding characters. */
  function PadTwo(b0: Byte): string {
    [Symbol(b0 / 4), Symbol((b0 % 4) * 16), '=', '=']
  }

  /** A final group of two octets: three sextets, the third zero-filled, and one padding character. */
  function PadOne(b0: Byte, b1: Byte): string {
    [Symbol(b0 / 4), Symbol((b0 % 4) * 16 + b1 / 16), Symbol((b1 % 16) * 4), '=']
  }

  function Encode(bs: seq<Byte>): string {
    if |bs| == 0 then []
    else if |bs| == 1 then PadTwo(bs[0])
    else if |bs| == 2 then PadOne(bs[0], bs[1])
    else Quad(bs[0], bs[1], bs[2]) + Encode(bs[3..])
  }

  /** The octets four sextets carry, the last `pad` octets of the group dropped. */
  function Unquad(v0: Sextet, v1: Sextet, v2: Sextet, v3: Sextet): seq<Byte> {
    [v0 * 4 + v1 / 16, (v1 % 16) * 16 + v2 / 4, (v2 % 4) * 64 + v3]
  }

  /** The three octets of a group of four alphabet characters. */
  function DecodeFull(g: string): Option<seq<Byte>>
    requires |g| == 4
  {
    var v0, v1, v2, v3 := SymbolValue(g[0]), SymbolValue(g[1]), SymbolValue(g[2]), SymbolValue(g[3]);
    if v0.None? || v1.None? || v2.None? || v3.None? then None
    else Some(Unquad(v0.value, v1.value, v2.value, v3.value))
  }

  /**
   The last group, which may end in one or two padding characters. The bits
   of the last sextet that no octet uses must be zero (section 3.5 of RFC
   4648), so that every encoded octet sequence has exactly one text.
   */
  function DecodeLast(g: string): Option<seq<Byte>>
    requires |g| == 4
  {
    var v0, v1, v2 := SymbolValue(g[0]), SymbolValue(g[1]), SymbolValue(g[2]);
    if v0.None? || v1.None? then None
    else if g[2] == '=' && g[3] == '=' then
      if v1.value % 16 != 0 then None else Some(Unquad(v0.value, v1.value, 0, 0)[..1])
    else if v2.None? then None
    else if g[3] == '=' then
      if v2.value % 4 != 0 then None else Some(Unquad(v0.value, v1.value, v2.value, 0)[..2])
    else DecodeFull(g)
  }

  /**
   The octets `s` encodes, or `None` when `s` is not a padded encoding: its
   length is not a multiple of four, a character is outside the alphabet,
   padding appears anywhere but at the end of the last group, or the sextet
   before the padding has non-zero bits that no octet uses.
   */
  function Decode(s: string): Option<seq<Byte>>
    decreases |s|
  {
    if |s| == 0 then Some([])
    else if |s| < 4 then None
    else if |s| == 4 then DecodeLast(s)
    else
      match DecodeFull(s[..4])
      case None => None
      case Some(group) =>
        match Decode(s[4..])
        case None => None
        case Some(rest) => Some(group + rest)
  }

  /** The sextets of a full group carry its three octets. */
  lemma UnquadQuad(b0: Byte, b1: Byte, b2: Byte)
    ensures Unquad(b0 / 4, (b0 % 4) * 16 + b1 / 16, (b1 % 16) * 4 + b2 / 64, b2 % 64) == [b0, b1, b2]
  {
  }

  lemma DecodeQuad(b0: Byte, b1: Byte, b2: Byte)
    ensures DecodeFull(Quad(b0, b1, b2)) == Some([b0, b1, b2])
    ensures DecodeLast(Quad(b0, b1, b2)) == Some([b0, b1, b2])
  {
    SymbolValueOf(b0 / 4);
    SymbolValueOf((b0 % 4) * 16 + b1 / 16);
    SymbolValueOf((b1 % 16) * 4 + b2 / 64);
    SymbolValueOf(b2 % 64);
    UnquadQuad(b0, b1, b2);
  }

  lemma PadTwoDecodes(b0: Byte)
    ensures DecodeLast(PadTwo(b0)) == Some([b0])
  {
    SymbolValueOf(b0 / 4);
    SymbolValueOf((b0 % 4) * 16);
    UnquadQuad(b0, 0, 0);
    assert Unquad(b0 / 4, (b0 % 4) * 16, 0, 0)[..1] == [b0];
  }

  lemma PadOneDecodes(b0: Byte, b1: Byte)
    ensures DecodeLast(PadOne(b0, b1)) == Some([b0, b1])
  {
    SymbolValueOf(b0 / 4);
    SymbolValueOf((b0 % 4) * 16 + b1 / 16);
    SymbolValueOf((b1 % 16) * 4);
    UnquadQuad(b0, b1, 0);
    assert Unquad(b0 / 4, (b0 % 4) * 16 + b1 / 16, (b1 % 16) * 4, 0)[..2] == [b0, b1];
  }

  /** A lone final octet comes back from its doubly padded group. */
  lemma DecodeOne(bs: seq<Byte>)
    requires |bs| == 1
    ensures Decode(Encode(bs)) == Some(bs)
  {
    PadTwoDecodes(bs[0]);
    assert Encode(bs) == PadTwo(bs[0]);
    assert bs == [bs[0]];
  }

  /** Two final octets come back from their singly padded group. */
  lemma DecodeTwo(bs: seq<Byte>)
    requires |bs| == 2
    ensures Decode(Encode(bs)) == Some(bs)
  {
    PadOneDecodes(bs[0], bs[1]);
    assert Encode(bs) == PadOne(bs[0], bs[1]);
    assert bs == [bs[0], bs[1]];
  }

  /** Three final octets come back from their unpadded group. */
  lemma DecodeThree(bs: seq<Byte>)
    requires |bs| == 3
    ensures Decode(Encode(bs)) == Some(bs)
  {
    DecodeQuad(bs[0], bs[1], bs[2]);
    assert bs[3..] == [];
    assert Encode(bs) == Quad(bs[0], bs[1], bs[2]);
    assert bs == [bs[0], bs[1], bs[2]];
  }

  /** Decoding undoes encoding. */
  lemma {:induction false} DecodeEncode(bs: seq<Byte>)
    ensures Decode(Encode(bs)) == Some(bs)
    decreases |bs|
  {
    if |bs| == 1 {
      DecodeOne(bs);
    } else if |bs| == 2 {
      DecodeTwo(bs);
    } else if |bs| == 3 {
      DecodeThree(bs);
    } else if |bs| > 3 {
      DecodeEncode(bs[3..]);
      DecodeEncodeStep(bs);
    }
  }

  /** A full group followed by a rest that round-trips round-trips as a whole. */
  lemma DecodeEncodeStep(bs: seq<Byte>)
    requires |bs| > 3 && Decode(Encode(bs[3..])) == Some(bs[3..])
    ensures Decode(Encode(bs)) == Some(bs)
  {
    FirstThree(bs);
    var g, rest := Quad(bs[0], bs[1], bs[2]), Encode(bs[3..]);
    assert Encode(bs) == g + rest;
    DecodeQuad(bs[0], bs[1], bs[2]);
    EncodedLength(bs[3..]);
    DecodeFront(g, rest);
  }

  lemma FirstThree<T>(s: seq<T>)
    requires |s| >= 3
    ensures s == [s[0], s[1], s[2]] + s[3..]
  {
  }

  /** Every started group of three octets takes four characters. */
  lemma {:induction false} EncodedLength(bs: seq<Byte>)
    ensures |Encode(bs)| == 4 * ((|bs| + 2) / 3)
    decreases |bs|
  {
    if |bs| > 3 {
      EncodedLength(bs[3..]);
      assert (|bs| + 2) / 3 == (|bs[3..]| + 2) / 3 + 1;
      assert Encode(bs) == Quad(bs[0], bs[1], bs[2]) + Encode(bs[3..]);
    }
  }

  /** A full group in front of a non-empty rest decodes group by group. */
  lemma DecodeFront(g: string, rest: string)
    requires |g| == 4 && |rest| > 0
    requires DecodeFull(g).Some? && Decode(rest).Some?
    ensures Decode(g + rest) == Some(DecodeFull(g).value + Decode(rest).value)
  {
    var s := g + rest;
    assert s[..4] == g;
    assert s[4..] == rest;
  }

  /** The sextets of a group come back from the octets they carry. */
  lemma QuadUnquad(v0: Sextet, v1: Sextet, v2: Sextet, v3: Sextet)
    ensures var b := Unquad(v0, v1, v2, v3);
            && b[0] / 4 == v0 && (b[0] % 4) * 16 + b[1] / 16 == v1
            && (b[1] % 16) * 4 + b[2] / 64 == v2 && b[2] % 64 == v3
  {
  }

  /** A group of four alphabet characters is the encoding of the three octets it decodes to. */
  lemma EncodeDecodeFull(g: string)
    requires |g| == 4 && DecodeFull(g).Some?
    ensures var b := DecodeFull(g).value; |b| == 3 && Quad(b[0], b[1], b[2]) == g
  {
    var v0, v1, v2, v3 := SymbolValue(g[0]).value, SymbolValue(g[1]).value, SymbolValue(g[2]).value, SymbolValue(g[3]).value;
    QuadUnquad(v0, v1, v2, v3);
  }

  /** A last group that decodes is the encoding of what it decodes to. */
  lemma EncodeDecodeLast(g: string)
    requires |g| == 4 && DecodeLast(g).Some?
    ensures Encode(DecodeLast(g).value) == g
  {
    var v0, v1 := SymbolValue(g[0]).value, SymbolValue(g[1]).value;
    if g[2] == '=' && g[3] == '=' {
      QuadUnquad(v0, v1, 0, 0);
    } else if g[3] == '=' {
      QuadUnquad(v0, v1, SymbolValue(g[2]).value, 0);
    } else {
      EncodeDecodeFull(g);
      var b := DecodeFull(g).value;
      assert b[3..] == [];
    }
  }

  /** Every text the decoder accepts is the encoding of what it decodes to: the encoding is canonical. */
  lemma {:induction false} EncodeDecode(s: string)
    requires Decode(s).Some?
    ensures Encode(Decode(s).value) == s
    decreases |s|
  {
    if |s| == 4 {
      EncodeDecodeLast(s);
    } else if |s| > 4 {
      var group, rest := DecodeFull(s[..4]).value, Decode(s[4..]).value;
      EncodeDecodeFull(s[..4]);
      EncodeDecode(s[4..]);
      assert rest != [];
      var bs := group + rest;
      assert bs[..3] == group && bs[3..] == rest;
      FirstThree(bs);
      assert Encode(bs) == s[..4] + s[4..];
    }
  }

  /** A text decodes to some octets exactly when it is their encoding. */
  lemma DecodeIffEncode(s: string, bs: seq<Byte>)
    ensures Decode(s) == Some(bs) <==> Encode(bs) == s
  {
    if Decode(s) == Some(bs) {
      EncodeDecode(s);
    }
    if Encode(bs) == s {
      DecodeEncode(bs);
    }
  }
}

=== FILE: bytes.dfy ===
/** Octets, as the encoders in this model produce and consume them. */
module Bytes {
  type Byte = b: int | 0 <= b < 256
}

=== FILE: dotenv.dfy ===
/**
 The hand-written `.env` reader both ticketing modules run at import time:
 each line is stripped; blank lines, `#` comments and lines without `=` are
 skipped; any other line sets the stripped text before its first `=` to the
 stripped text after it. The file's lines are given (absent when the file
 does not exist) and the process environment is a map.
 */
module DotEnv {
  import opened Wrappers
  import opened Text

  type Env = map<string, string>

  /** What one line of the file does. */
  datatype Line = Skip | Assign(key: string, value: string)

  /** The meaning of one line; a value may itself contain `=`. */
  function ParseLine(raw: string): (l: Line)
    ensures var line := Strip(raw);
            l.Skip? <==> (line == [] || line[0] == '#' || '=' !in line)
    ensures var line := Strip(raw);
            l.Assign? ==> exists i :: 0 <= i < |line| && line[i] == '=' && '=' !in line[..i]
                                      && l.key == Strip(line[..i]) && l.value == Strip(line[i + 1..])
  {
    var line := Strip(raw);
    if line == [] || line[0] == '#' then Skip
    else
      match FirstIndex(line, '=')
      case None => Skip
      case Some(i) => Assign(Strip(line[..i]), Strip(line[i + 1..]))
  }

  /**
   Whether setting `key` to `value` makes `os.environ` raise: the operating
   system refuses an empty name, and a NUL cannot be passed in either.
   */
  predicate Refused(key: string, value: string) {
    key == [] || '\0' in key || '\0' in value
  }

  /**
   How loading ended: every line applied, or an assignment was refused and
   the exception escaped with the environment as the earlier lines left it.
   */
  datatype Load = Loaded(env: Env) | Aborted(env: Env)

  /** A line the environment refuses. */
  predicate RefusedLine(raw: string) {
    ParseLine(raw).Assign? && Refused(ParseLine(raw).key, ParseLine(raw).value)
  }

  /** The lines applied in file order to `env`. */
  function ApplyLines(env: Env, lines: seq<string>): Load
    decreases |lines|
  {
    if |lines| == 0 then Loaded(env)
    else
      match ParseLine(lines[0])
      case Skip => ApplyLines(env, lines[1..])
      case Assign(key, value) =>
        if Refused(key, value) then Aborted(env)
        else ApplyLines(env[key := value], lines[1..])
  }

  /** `load_env_manually`: a missing file leaves the environment as it is. */
  function LoadEnv(env: Env, file: Option<seq<string>>): (r: Load)
    ensures file.None? ==> r == Loaded(env)
  {
    match file
    case None => Loaded(env)
    case Some(lines) => ApplyLines(env, lines)
  }

  /** The value the last line assigning `key` gives it, if any line does. */
  function LastAssigned(lines: seq<string>, key: string): Option<string>
    decreases |lines|
  {
    if |lines| == 0 then None
    else
      var l := ParseLine(lines[|lines| - 1]);
      if l.Assign? && l.key == key then Some(l.value)
      else LastAssigned(lines[..|lines| - 1], key)
  }

  /** The environment after applying `lines` in full, described key by key. */
  ghost predicate Overlaid(before: Env, lines: seq<string>, after: Env) {
    forall key :: match LastAssigned(lines, key)
                  case Some(value) => key in after && after[key] == value
                  case None => (key in after <==> key in before) && (key in before ==> after[key] == before[key])
  }

  /** The last assignment of `key` among `[first] + rest`. */
  lemma {:induction false} LastAssignedCons(first: string, rest: seq<string>, key: string)
    ensures var l := ParseLine(first);
            LastAssigned([first] + rest, key)
            == if LastAssigned(rest, key).Some? then LastAssigned(rest, key)
               else if l.Assign? && l.key == key then Some(l.value)
               else None
    decreases |rest|
  {
    var lines := [first] + rest;
    if |rest| == 0 {
      assert lines[..0] == [];
    } else {
      assert lines[..|lines| - 1] == [first] + rest[..|rest| - 1];
      LastAssignedCons(first, rest[..|rest| - 1], key);
    }
  }

  /** The environment after one line that is not refused. */
  function Next(env: Env, line: string): Env {
    var l := ParseLine(line);
    if l.Assign? then env[l.key := l.value] else env
  }

  /** The first line is refused, or applied before the rest. */
  lemma ApplyFirst(env: Env, lines: seq<string>)
    requires |lines| > 0
    ensures ApplyLines(env, lines)
            == if RefusedLine(lines[0]) then Aborted(env) else ApplyLines(Next(env, lines[0]), lines[1..])
  {
  }

  /** Loading succeeds exactly when no line is refused. */
  lemma {:induction false} LoadedIff(env: Env, lines: seq<string>)
    ensures ApplyLines(env, lines).Loaded? <==> forall i :: 0 <= i < |lines| ==> !RefusedLine(lines[i])
    decreases |lines|
  {
    if |lines| > 0 {
      var rest := lines[1..];
      ApplyFirst(env, lines);
      if !RefusedLine(lines[0]) {
        LoadedIff(Next(env, lines[0]), rest);
        if forall i :: 0 <= i < |rest| ==> !RefusedLine(rest[i]) {
          forall i | 0 < i < |lines| ensures !RefusedLine(lines[i]) {
            assert lines[i] == rest[i - 1];
          }
        }
      }
    }
  }

  /**
   After a successful load every key a line assigns holds the value of the
   last such line, and every other key is as it was.
   */
  lemma {:induction false} LoadOverlay(env: Env, lines: seq<string>)
    requires ApplyLines(env, lines).Loaded?
    ensures Overlaid(env, lines, ApplyLines(env, lines).env)
    decreases |lines|
  {
    if |lines| > 0 {
      var first, rest := lines[0], lines[1..];
      ApplyFirst(env, lines);
      LoadOverlay(Next(env, first), rest);
      assert lines == [first] + rest;
      OverlayCons(env, first, rest, ApplyLines(env, lines).env);
    }
  }

  /** Applying one line and then the rest overlays the whole file. */
  lemma OverlayCons(env: Env, first: string, rest: seq<string>, after: Env)
    requires Overlaid(Next(env, first), rest, after)
    ensures Overlaid(env, [first] + rest, after)
  {
    forall key ensures match LastAssigned([first] + rest, key)
                       case Some(value) => key in after && after[key] == value
                       case None => (key in after <==> key in env) && (key in env ==> after[key] == env[key])
    {
      LastAssignedCons(first, rest, key);
    }
  }

  /** Python's `not x` for an optional environment value: unset or empty. */
  predicate Blank(v: Option<string>) {
    v.None? || v.value == []
  }

  /** `os.getenv(key)`. */
  function Getenv(env: Env, key: string): Option<string> {
    if key in env then Some(env[key]) else None
  }
}

=== FILE: json_value.dfy ===
/**
 Decoded JSON values and the handful of Python operations the tool handlers
 apply to them: truthiness, `key in v`, `v.get(key, default)`, `v[key]`,
 iteration, `len(v)`, `a <= b` and `str(v)`. An operation Python would
 refuse raises a `Fault` instead of producing a value.
 */
module JsonValue {
  import opened Wrappers
  import Text

  /** A JSON document as `json.loads` returns it (numbers are integers here). */
  datatype Value =
    | Null
    | Bool(b: bool)
    | Num(n: int)
    | Str(s: string)
    | Arr(items: seq<Value>)
    | Obj(fields: map<string, Value>)

  /**
   The Python exception class an operation on a value would raise, or, for
   `OverflowError`, that computing a date `days` days back would raise.
   */
  datatype Fault = TypeError | AttributeError | KeyError | OverflowError

  /** `{"error": detail}`, the shape every request helper uses for a failure. */
  function ErrorObject(detail: Value): Value {
    Obj(map["error" := detail])
  }

  /** Python's truth value of a decoded JSON value: `None`, `False`, `0` and empty containers are false. */
  predicate Truthy(v: Value) {
    match v
    case Null => false
    case Bool(b) => b
    case Num(n) => n != 0
    case Str(s) => |s| > 0
    case Arr(items) => |items| > 0
    case Obj(fields) => |fields| > 0
  }

  /** `args.get(key, default)` on a tool's argument mapping. */
  function Lookup(args: map<string, Value>, key: string, default: Value): Value {
    if key in args then args[key] else default
  }

  /** `v.get(key, default)`: only a JSON object has a `get` method. */
  function Get(v: Value, key: string, default: Value): Result<Value, Fault> {
    match v
    case Obj(fields) => Ok(Lookup(fields, key, default))
    case _ => Err(AttributeError)
  }

  /**
   `key in v` for a string `key`: a key of an object, an element of an array,
   a substring of a string; numbers, booleans and `None` cannot be searched.
   */
  function Contains(v: Value, key: string): Result<bool, Fault> {
    match v
    case Obj(fields) => Ok(key in fields)
    case Arr(items) => Ok(Str(key) in items)
    case Str(s) => Ok(Text.Occurs(key, s))
    case _ => Err(TypeError)
  }

  /** `v[key]` for a string `key`: only an object holding `key` yields a value. */
  function Index(v: Value, key: string): Result<Value, Fault> {
    match v
    case Obj(fields) => if key in fields then Ok(fields[key]) else Err(KeyError)
    case _ => Err(TypeError)
  }

  /**
   The element an iteration over an object yields. Iterating a dict yields its
   keys; the handlers only count them and then fail on them (a key has no
   `get`), so a key is represented by this non-object placeholder.
   */
  const KeyPlaceholder: Value := Str("")

  /**
   `for x in v`: the elements of an array, one placeholder per key of an
   object, one single-character string per character of a string.
   */
  function Elements(v: Value): (r: Result<seq<Value>, Fault>)
    ensures r.Err? <==> (v.Null? || v.Bool? || v.Num?)
    ensures v.Arr? ==> r == Ok(v.items)
    ensures v.Obj? ==> r.Ok? && |r.value| == |v.fields| && forall x :: x in r.value ==> !x.Obj?
    ensures v.Str? ==> r.Ok? && |r.value| == |v.s| && forall x :: x in r.value ==> !x.Obj?
  {
    match v
    case Arr(items) => Ok(items)
    case Obj(fields) => Ok(seq(|fields|, _ => KeyPlaceholder))
    case Str(s) => Ok(seq(|s|, i requires 0 <= i < |s| => Str([s[i]])))
    case _ => Err(TypeError)
  }

  /** `len(v)`. */
  function Len(v: Value): (r: Result<nat, Fault>)
    ensures r.Err? <==> (v.Null? || v.Bool? || v.Num?)
    ensures r.Ok? ==> Elements(v).Ok? && r.value == |Elements(v).value|
  {
    match v
    case Arr(items) => Ok(|items|)
    case Obj(fields) => Ok(|fields|)
    case Str(s) => Ok(|s|)
    case _ => Err(TypeError)
  }

  /** Python orders booleans as the integers 0 and 1. */
  predicate IsNumber(v: Value) {
    v.Num? || v.Bool?
  }

  function NumberOf(v: Value): int
    requires IsNumber(v)
  {
    match v
    case Num(n) => n
    case Bool(b) => if b then 1 else 0
  }

  /** `a <= b`, for the numeric values this model compares. */
  function LessEq(a: Value, b: Value): Result<bool, Fault> {
    if IsNumber(a) && IsNumber(b) then Ok(NumberOf(a) <= NumberOf(b)) else Err(TypeError)
  }

  /** `str(v)` as an f-string inserts it; lists and dicts are shown only by their kind. */
  function Format(v: Value): string {
    match v
    case Null => "None"
    case Bool(b) => if b then "True" else "False"
    case Num(n) => Text.IntToDecimal(n)
    case Str(s) => s
    case Arr(_) => "<list>"
    case Obj(_) => "<dict>"
  }
}

=== FILE: low_stock.dfy ===
/**
 The low-stock scan: fetch every product page by page, keep the products
 whose stock quantity is known and at most the threshold, and sort them by
 stock quantity, keeping the fetched order among equal quantities.
 */
module LowStock {
  import opened Wrappers
  import Text
  import opened JsonValue
  import opened Upstream
  import opened Tools
  import opened Store
  import Seqs
  import opened StableSort

  /** Products are fetched 100 per page. */
  const PageSize: nat := 100

  /** The query of page `page`; pages are numbered from 1. */
  function PageParams(page: nat): map<string, Value> {
    map["per_page" := Num(PageSize), "page" := Num(page)]
  }

  function PageRequest(page: nat): Request {
    StoreRequest("products", PageParams(page))
  }

  /**
   What the loop does with one fetched page: stop (an error object or a falsy
   value, not appended), fail (an exception from `in` or iteration), append
   and stop (a page shorter than a full page), or append and go on.
   */
  datatype Step = Stop | Fail(fault: Fault) | Last(items: seq<Value>) | Full(items: seq<Value>)

  function PageStep(v: Value): (s: Step)
    ensures s.Full? ==> |s.items| >= PageSize
    ensures s.Last? ==> 0 < |s.items| < PageSize
    ensures v.Arr? ==> (s.Stop? <==> v.items == [] || Str("error") in v.items)
    ensures v.Arr? && (s.Last? || s.Full?) ==> s.items == v.items
    ensures v.Obj? && "error" in v.fields ==> s.Stop?
    ensures v.Obj? ==> (s.Stop? <==> v.fields == map[] || "error" in v.fields)
    ensures v.Str? ==> (s.Stop? <==> v.s == [] || Text.Occurs("error", v.s))
    ensures s.Fail? <==> v.Null? || v.Bool? || v.Num?
    ensures s.Fail? ==> s.fault == TypeError
  {
    match Contains(v, "error")
    case Err(fault) => Fail(fault)
    case Ok(found) =>
      if found || !Truthy(v) then Stop
      else
        match Elements(v)
        case Err(fault) => Fail(fault)
        case Ok(items) => if |items| < PageSize then Last(items) else Full(items)
  }

  /** Fetches page `page` and decides what the loop does with it. */
  function FetchStep(oracle: Oracle, page: nat): Step {
    PageStep(StoreGet(oracle, "products", PageParams(page)).value)
  }

  /** The step the loop takes on each page, as the store answers it. */
  function Steps(oracle: Oracle): nat -> Step {
    (page: nat) => FetchStep(oracle, page)
  }

  /** The products page `page` contributes to the accumulated list. */
  function Contribution(steps: nat -> Step, page: nat): seq<Value> {
    match steps(page)
    case Last(items) => items
    case Full(items) => items
    case _ => []
  }

  /** How the loop ended: by a `break`, by an exception, or not within the allowed pages. */
  datatype End = Finished | Halted(fault: Fault) | OutOfPages

  /** The accumulated products, the requests sent, and how the loop ended. */
  datatype Scan = Scan(products: seq<Value>, calls: seq<Request>, end: End)

  /**
   The pagination loop started at page `page`, taking `steps(p)` on page `p`
   and allowed at most `budget` more requests. The source loops `while True`;
   the budget stands for "the store eventually answers a page that ends the loop".
   */
  function ScanFrom(steps: nat -> Step, page: nat, budget: nat): (s: Scan)
    ensures |s.calls| <= budget
    decreases budget
  {
    if budget == 0 then Scan([], [], OutOfPages)
    else
      var request := PageRequest(page);
      match steps(page)
      case Stop => Scan([], [request], Finished)
      case Fail(fault) => Scan([], [request], Halted(fault))
      case Last(items) => Scan(items, [request], Finished)
      case Full(items) =>
        var rest := ScanFrom(steps, page + 1, budget - 1);
        Scan(items + rest.products, [request] + rest.calls, rest.end)
  }

  /**
   The loop requests pages `page`, `page + 1`, ... in order, one request per
   page; it is cut off only after using its whole budget on full pages, and
   it ends in an exception only on a page whose step raised.
   */
  lemma {:induction false} ScanRequests(steps: nat -> Step, page: nat, budget: nat)
    ensures var s := ScanFrom(steps, page, budget);
      && (forall i :: 0 <= i < |s.calls| ==> s.calls[i] == PageRequest(page + i))
      && (s.end == OutOfPages <==> |s.calls| == budget && (budget == 0 || steps(page + budget - 1).Full?))
      && (s.end.Halted? ==> |s.calls| > 0 && steps(page + |s.calls| - 1) == Fail(s.end.fault))
    decreases budget
  {
    if budget > 0 && steps(page).Full? {
      ScanRequests(steps, page + 1, budget - 1);
      var rest := ScanFrom(steps, page + 1, budget - 1);
      var s := ScanFrom(steps, page, budget);
      assert s.calls == [PageRequest(page)] + rest.calls;
      forall i | 1 <= i < |s.calls|
        ensures s.calls[i] == PageRequest(page + i)
      {
        assert s.calls[i] == rest.calls[i - 1];
      }
    }
  }

  /** Pages `page` .. `page + n - 1` are all full. */
  ghost predicate FullRun(steps: nat -> Step, page: nat, n: nat) {
    forall p :: page <= p < page + n ==> steps(p).Full?
  }

  /**
   When the first page that is not full is `page + n` and the budget reaches
   it, the loop sends exactly the requests for pages `page` .. `page + n`,
   ends there, and has accumulated the concatenation of what those pages
   contribute (an error or empty page contributes nothing).
   */
  lemma {:induction false} ScanStopsAtFirstShortPage(steps: nat -> Step, page: nat, n: nat, budget: nat)
    requires FullRun(steps, page, n)
    requires !steps(page + n).Full?
    requires n < budget
    ensures |ScanFrom(steps, page, budget).calls| == n + 1
    ensures ScanFrom(steps, page, budget).end != OutOfPages
    ensures ScanFrom(steps, page, budget).products
            == Seqs.Concat(seq(n + 1, i requires 0 <= i <= n => Contribution(steps, page + i)))
    decreases n
  {
    var pages := seq(n + 1, i requires 0 <= i <= n => Contribution(steps, page + i));
    if n == 0 {
      assert pages == [] + [Contribution(steps, page)];
    } else {
      ScanStopsAtFirstShortPage(steps, page + 1, n - 1, budget - 1);
      var rest := seq(n - 1 + 1, i requires 0 <= i <= n - 1 => Contribution(steps, page + 1 + i));
      assert pages == [Contribution(steps, page)] + rest;
      assert steps(page).Full?;
      Seqs.ConcatAppend([Contribution(steps, page)], rest);
      assert Seqs.Concat([Contribution(steps, page)]) == Contribution(steps, page) by {
        assert [Contribution(steps, page)][..0] == [];
      }
    }
  }

  /** If every page the budget allows is full, the scan is cut off with all of them requested. */
  lemma {:induction false} ScanNeverEndsOnFullPages(steps: nat -> Step, page: nat, budget: nat)
    requires FullRun(steps, page, budget)
    ensures ScanFrom(steps, page, budget).end == OutOfPages
    ensures |ScanFrom(steps, page, budget).calls| == budget
    decreases budget
  {
    if budget > 0 {
      ScanNeverEndsOnFullPages(steps, page + 1, budget - 1);
    }
  }

  /**
   The loop state after some pages: what has been accumulated and requested,
   followed by what the rest of the scan from `page` adds, is the whole scan.
   */
  ghost predicate Resumes(steps: nat -> Step, page: nat, left: nat, products: seq<Value>, calls: seq<Request>, total: Scan) {
    var rest := ScanFrom(steps, page, left);
    && products + rest.products == total.products
    && calls + rest.calls == total.calls
    && rest.end == total.end
  }

  /** A full page is appended and the loop moves on to the next page. */
  lemma {:induction false} ResumeAfterFullPage(steps: nat -> Step, page: nat, left: nat, products: seq<Value>, calls: seq<Request>, total: Scan)
    requires left > 0 && steps(page).Full?
    requires Resumes(steps, page, left, products, calls, total)
    ensures Resumes(steps, page + 1, left - 1, products + steps(page).items, calls + [PageRequest(page)], total)
  {
    var rest := ScanFrom(steps, page + 1, left - 1);
    var items := steps(page).items;
    assert ScanFrom(steps, page, left).products == items + rest.products;
    assert ScanFrom(steps, page, left).calls == [PageRequest(page)] + rest.calls;
    assert (products + items) + rest.products == products + (items + rest.products);
    assert (calls + [PageRequest(page)]) + rest.calls == calls + ([PageRequest(page)] + rest.calls);
  }

  /** Any other page ends the loop, appending the page only when it is short but not empty. */
  lemma ResumeAtLastPage(steps: nat -> Step, page: nat, left: nat, products: seq<Value>, calls: seq<Request>, total: Scan)
    requires left > 0 && !steps(page).Full?
    requires Resumes(steps, page, left, products, calls, total)
    ensures total.products == products + (if steps(page).Last? then steps(page).items else [])
    ensures total.calls == calls + [PageRequest(page)]
    ensures total.end == if steps(page).Fail? then Halted(steps(page).fault) else Finished
  {
    assert products + [] == products;
  }

  /** An exhausted budget ends the loop with nothing more added. */
  lemma ResumeOutOfPages(steps: nat -> Step, page: nat, products: seq<Value>, calls: seq<Request>, total: Scan)
    requires Resumes(steps, page, 0, products, calls, total)
    ensures total == Scan(products, calls, OutOfPages)
  {
    assert products + [] == products && calls + [] == calls;
  }

  /**
   The pagination loop of the handler, written as the source writes it:
   request page after page from page 1, append each non-empty page, and
   leave at the first error, empty or short page. `fetch(page)` is what the
   loop makes of the store's answer to page `page`; the handler passes
   `Steps(oracle)`.
   */
  method CollectProducts(fetch: nat -> Step, budget: nat) returns (products: seq<Value>, calls: seq<Request>, end: End)
    ensures Scan(products, calls, end) == ScanFrom(fetch, 1, budget)
  {
    ghost var steps := fetch;
    ghost var total := ScanFrom(steps, 1, budget);
    products := [];
    calls := [];
    var page: nat := 1;
    var left: nat := budget;
    while true
      invariant Resumes(steps, page, left, products, calls, total)
      decreases left
    {
      if left == 0 {
        ResumeOutOfPages(steps, page, products, calls, total);
        end := OutOfPages;
        return;
      }
      var step := fetch(page);
      if !step.Full? {
        ResumeAtLastPage(steps, page, left, products, calls, total);
        calls := calls + [PageRequest(page)];
        products := if step.Last? then products + step.items else products;
        end := if step.Fail? then Halted(step.fault) else Finished;
        return;
      }
      ResumeAfterFullPage(steps, page, left, products, calls, total);
      calls := calls + [PageRequest(page)];
      products := products + step.items;
      page := page + 1;
      left := left - 1;
    }
  }

  /**
   Whether the filter keeps `p`: `p.get("stock_quantity")` is not None and at
   most the threshold. A product that is not an object, or a quantity Python
   cannot compare with the threshold, raises.
   */
  function LowStockTest(p: Value, threshold: Value): (r: Result<bool, Fault>)
    ensures r.Ok? <==> p.Obj? && var q := Lookup(p.fields, "stock_quantity", Null); q.Null? || LessEq(q, threshold).Ok?
    ensures !p.Obj? ==> r == Err(AttributeError)
    ensures p.Obj? && r.Err? ==> r.error == TypeError
  {
    match Get(p, "stock_quantity", Null)
    case Err(fault) => Err(fault)
    case Ok(quantity) => if quantity.Null? then Ok(false) else LessEq(quantity, threshold)
  }

  predicate IsLowStock(p: Value, threshold: Value) {
    LowStockTest(p, threshold) == Ok(true)
  }

  lemma LowStockMeaning(p: Value, threshold: Value)
    ensures IsLowStock(p, threshold) <==>
              p.Obj? && "stock_quantity" in p.fields && IsNumber(p.fields["stock_quantity"]) && IsNumber(threshold)
              && NumberOf(p.fields["stock_quantity"]) <= NumberOf(threshold)
  {
  }

  /** A kept product: its stock quantity as the sort key, and the six fields reported for it. */
  type Entry = Keyed<Value>

  /** The fields reported for a low-stock product, each `None` when the product lacks it. */
  const ReportedFields: set<string> := {"id", "name", "sku", "stock_quantity", "price", "manage_stock"}

  function EntryOf(p: Value, threshold: Value): (e: Entry)
    requires IsLowStock(p, threshold)
    ensures e.key == NumberOf(p.fields["stock_quantity"])
    ensures e.item.Obj? && e.item.fields.Keys == ReportedFields
    ensures forall k :: k in ReportedFields ==> e.item.fields[k] == Lookup(p.fields, k, Null)
  {
    var fields := p.fields;
    Keyed(NumberOf(fields["stock_quantity"]),
          Obj(map["id" := Lookup(fields, "id", Null),
                  "name" := Lookup(fields, "name", Null),
                  "sku" := Lookup(fields, "sku", Null),
                  "stock_quantity" := fields["stock_quantity"],
                  "price" := Lookup(fields, "price", Null),
                  "manage_stock" := Lookup(fields, "manage_stock", Null)]))
  }

  /**
   The filter loop: raises at the first product it cannot test, otherwise
   yields one entry per kept product, in fetched order.
   */
  function SelectLowStock(products: seq<Value>, threshold: Value): (r: Result<seq<Entry>, Fault>)
    ensures r.Ok? <==> forall i :: 0 <= i < |products| ==> LowStockTest(products[i], threshold).Ok?
    ensures r.Ok? ==> var kept := Seqs.Filter(products, p => IsLowStock(p, threshold));
              |r.value| == |kept| && forall i :: 0 <= i < |kept| ==> r.value[i] == EntryOf(kept[i], threshold)
    ensures r.Err? ==> exists i :: 0 <= i < |products| && LowStockTest(products[i], threshold) == Err(r.error)
                                   && forall j :: 0 <= j < i ==> LowStockTest(products[j], threshold).Ok?
  {
    if |products| == 0 then Ok([])
    else
      var last := products[|products| - 1];
      match SelectLowStock(products[..|products| - 1], threshold)
      case Err(fault) =>
        Err(fault)
      case Ok(entries) =>
        match LowStockTest(last, threshold)
        case Err(fault) => Err(fault)
        case Ok(keep) => Ok(entries + (if keep then [EntryOf(last, threshold)] else []))
  }

  /** The object the handler serialises. */
  function Report(sorted: seq<Entry>, threshold: Value): (v: Value)
    ensures v.Obj? && v.fields.Keys == {"total_low_stock_products", "threshold", "products"}
    ensures v.fields["products"].Arr? && |v.fields["products"].items| == |sorted|
    ensures v.fields["total_low_stock_products"] == Num(|v.fields["products"].items|)
    ensures v.fields["threshold"] == threshold
    ensures forall i :: 0 <= i < |sorted| ==> v.fields["products"].items[i] == sorted[i].item
  {
    Obj(map["total_low_stock_products" := Num(|sorted|),
            "threshold" := threshold,
            "products" := Arr(seq(|sorted|, i requires 0 <= i < |sorted| => sorted[i].item))])
  }
}

=== FILE: seqs.dfy ===
/** Sequence combinators the handlers are built from. */
module Seqs {
  import opened Wrappers

  /** The elements of `s` satisfying `keep`, in their original order. */
  function Filter<T>(s: seq<T>, keep: T -> bool): (r: seq<T>)
    ensures |r| <= |s|
    ensures forall i :: 0 <= i < |r| ==> keep(r[i])
  {
    if |s| == 0 then []
    else Filter(s[..|s| - 1], keep) + (if keep(s[|s| - 1]) then [s[|s| - 1]] else [])
  }

  /** An element survives the filter exactly when it is in `s` and satisfies `keep`. */
  lemma {:induction false} FilterMembers<T>(s: seq<T>, keep: T -> bool, x: T)
    ensures x in Filter(s, keep) <==> x in s && keep(x)
  {
    if |s| > 0 {
      FilterMembers(s[..|s| - 1], keep, x);
      assert s == s[..|s| - 1] + [s[|s| - 1]];
    }
  }

  /** The concatenation of a sequence of sequences. */
  function Concat<T>(ss: seq<seq<T>>): seq<T> {
    if |ss| == 0 then [] else Concat(ss[..|ss| - 1]) + ss[|ss| - 1]
  }

  lemma {:induction false} ConcatAppend<T>(ss: seq<seq<T>>, ts: seq<seq<T>>)
    ensures Concat(ss + ts) == Concat(ss) + Concat(ts)
    decreases |ts|
  {
    if |ts| == 0 {
      assert ss + ts == ss;
    } else {
      var ts' := ts[..|ts| - 1];
      assert (ss + ts)[..|ss + ts| - 1] == ss + ts';
      ConcatAppend(ss, ts');
    }
  }

  /**
   Applies `f` to every element in order and stops at the first failure, the
   way a Python loop that builds a list stops at the first exception.
   */
  function MapAll<T, U(==), E(==)>(f: T -> Result<U, E>, s: seq<T>): (r: Result<seq<U>, E>)
    ensures r.Ok? <==> forall i :: 0 <= i < |s| ==> f(s[i]).Ok?
    ensures r.Ok? ==> |r.value| == |s| && forall i :: 0 <= i < |s| ==> f(s[i]) == Ok(r.value[i])
    ensures r.Err? ==> exists i :: 0 <= i < |s| && f(s[i]) == Err(r.error) && forall j :: 0 <= j < i ==> f(s[j]).Ok?
  {
    if |s| == 0 then Ok([])
    else
      match f(s[0])
      case Err(e) => Err(e)
      case Ok(y) =>
        match MapAll(f, s[1..])
        case Err(e) =>
          var i :| 0 <= i < |s[1..]| && f(s[1..][i]) == Err(e) && forall j :: 0 <= j < i ==> f(s[1..][j]).Ok?;
          assert f(s[i + 1]) == Err(e);
          Err(e)
        case Ok(ys) => Ok([y] + ys)
  }
}

=== FILE: stable_sort.dfy ===
/**
 Python's `list.sort(key=...)` on integer keys: a stable ascending sort,
 written as an insertion sort. Stability is stated through `WithKey`, the
 entries of one key in their order.
 */
module StableSort {

  /** An element together with the integer key it is sorted by. */
  datatype Keyed<T> = Keyed(key: int, item: T)

  predicate SortedByKey<T(==)>(es: seq<Keyed<T>>) {
    forall i, j :: 0 <= i < j < |es| ==> es[i].key <= es[j].key
  }

  /** The entries of `es` whose key is `q`, in order. */
  function WithKey<T(==)>(es: seq<Keyed<T>>, q: int): seq<Keyed<T>> {
    if |es| == 0 then []
    else WithKey(es[..|es| - 1], q) + (if es[|es| - 1].key == q then [es[|es| - 1]] else [])
  }

  /** Places `e` after every trailing entry whose key exceeds its own. */
  function Insert<T(==)>(es: seq<Keyed<T>>, e: Keyed<T>): (r: seq<Keyed<T>>)
    ensures multiset(r) == multiset(es) + multiset{e}
  {
    if |es| == 0 then [e]
    else if es[|es| - 1].key <= e.key then es + [e]
    else
      var r := Insert(es[..|es| - 1], e) + [es[|es| - 1]];
      assert es == es[..|es| - 1] + [es[|es| - 1]];
      r
  }

  /** Inserting into a sorted list keeps it sorted. */
  lemma {:induction false} InsertSorted<T>(es: seq<Keyed<T>>, e: Keyed<T>)
    requires SortedByKey(es)
    ensures SortedByKey(Insert(es, e))
  {
    if |es| > 0 && es[|es| - 1].key > e.key {
      var init := es[..|es| - 1];
      var last := es[|es| - 1];
      InsertSorted(init, e);
      var front := Insert(init, e);
      forall i | 0 <= i < |front|
        ensures front[i].key <= last.key
      {
        assert front[i] in multiset(front);
        if front[i] != e {
          assert front[i] in multiset(init);
          var k :| 0 <= k < |init| && init[k] == front[i];
          assert es[k] == init[k];
        }
      }
    }
  }

  /** The inserted entry comes after every entry of equal key. */
  lemma {:induction false} InsertStable<T>(es: seq<Keyed<T>>, e: Keyed<T>, q: int)
    ensures WithKey(Insert(es, e), q) == WithKey(es, q) + (if e.key == q then [e] else [])
  {
    if |es| == 0 {
      AppendWithKey([], e, q);
      assert [] + [e] == [e];
    } else if es[|es| - 1].key <= e.key {
      AppendWithKey(es, e, q);
    } else {
      var init, last := es[..|es| - 1], es[|es| - 1];
      assert Insert(es, e) == Insert(init, e) + [last];
      assert WithKey(es, q) == WithKey(init, q) + (if last.key == q then [last] else []);
      InsertStable(init, e, q);
      AppendWithKey(Insert(init, e), last, q);
    }
  }

  lemma AppendWithKey<T>(front: seq<Keyed<T>>, last: Keyed<T>, q: int)
    ensures WithKey(front + [last], q) == WithKey(front, q) + (if last.key == q then [last] else [])
  {
    assert (front + [last])[..|front|] == front;
  }

  /** `list.sort(key=...)`: an insertion sort, each entry inserted after all smaller-or-equal keys. */
  function SortByKey<T(==)>(es: seq<Keyed<T>>): (r: seq<Keyed<T>>)
    ensures SortedByKey(r)
    ensures multiset(r) == multiset(es)
  {
    if |es| == 0 then []
    else
      var sorted := SortByKey(es[..|es| - 1]);
      InsertSorted(sorted, es[|es| - 1]);
      assert es == es[..|es| - 1] + [es[|es| - 1]];
      Insert(sorted, es[|es| - 1])
  }

  /** The sort is stable: the entries of each key keep their original order. */
  lemma {:induction false} SortStable<T>(es: seq<Keyed<T>>, q: int)
    ensures WithKey(SortByKey(es), q) == WithKey(es, q)
  {
    if |es| > 0 {
      SortStable(es[..|es| - 1], q);
      InsertStable(SortByKey(es[..|es| - 1]), es[|es| - 1], q);
    }
  }

  /**
   Sortedness and stability pin the result down: two sorted lists with the
   same entries of every key, in the same order, are equal.
   */
  lemma {:induction false} SortedUnique<T>(a: seq<Keyed<T>>, b: seq<Keyed<T>>)
    requires SortedByKey(a) && SortedByKey(b)
    requires forall q :: WithKey(a, q) == WithKey(b, q)
    ensures a == b
    decreases |a| + |b|
  {
    if |a| == 0 || |b| == 0 {
      if |a| > 0 {
        WithKeyHas(a, |a| - 1);
      } else if |b| > 0 {
        WithKeyHas(b, |b| - 1);
      }
    } else {
      LastKeysMatch(a, b);
      DropLast(a, b, a[..|a| - 1], b[..|b| - 1]);
      SortedUnique(a[..|a| - 1], b[..|b| - 1]);
      assert a == a[..|a| - 1] + [a[|a| - 1]] && b == b[..|b| - 1] + [b[|b| - 1]];
    }
  }

  /** Two such lists end in an entry of the same key, their largest. */
  lemma LastKeysMatch<T>(a: seq<Keyed<T>>, b: seq<Keyed<T>>)
    requires SortedByKey(a) && SortedByKey(b) && |a| > 0 && |b| > 0
    requires forall q :: WithKey(a, q) == WithKey(b, q)
    ensures a[|a| - 1].key == b[|b| - 1].key
  {
    var x, y := a[|a| - 1], b[|b| - 1];
    if x.key < y.key {
      WithKeyHas(b, |b| - 1);
      WithKeyAbove(a, y.key);
    } else if y.key < x.key {
      WithKeyHas(a, |a| - 1);
      WithKeyAbove(b, x.key);
    }
  }

  /** Lists whose last entries share a key agree on those entries and on the rest. */
  lemma DropLast<T>(a: seq<Keyed<T>>, b: seq<Keyed<T>>, a': seq<Keyed<T>>, b': seq<Keyed<T>>)
    requires |a| > 0 && |b| > 0 && a[|a| - 1].key == b[|b| - 1].key
    requires a' == a[..|a| - 1] && b' == b[..|b| - 1]
    requires forall q :: WithKey(a, q) == WithKey(b, q)
    ensures a[|a| - 1] == b[|b| - 1]
    ensures forall q :: WithKey(a', q) == WithKey(b', q)
  {
    var x, y := a[|a| - 1], b[|b| - 1];
    forall q ensures WithKey(a', q) == WithKey(b', q) {
      var wa, wb := WithKey(a, q), WithKey(b, q);
      assert wa == wb;
      assert wa == WithKey(a', q) + (if x.key == q then [x] else []);
      assert wb == WithKey(b', q) + (if y.key == q then [y] else []);
      if q == x.key {
        assert wa[..|wa| - 1] == WithKey(a', q);
        assert wb[..|wb| - 1] == WithKey(b', q);
      } else {
        assert wa == WithKey(a', q) + [] == WithKey(a', q);
        assert wb == WithKey(b', q) + [] == WithKey(b', q);
      }
    }
    var w := WithKey(a, x.key);
    assert w[|w| - 1] == x;
  }

  /** The entry at position `i` shows up among the entries of its key. */
  lemma {:induction false} WithKeyHas<T>(es: seq<Keyed<T>>, i: nat)
    requires i < |es|
    ensures |WithKey(es, es[i].key)| > 0
    decreases |es|
  {
    if i < |es| - 1 {
      WithKeyHas(es[..|es| - 1], i);
    }
  }

  /** A sorted list holds no entry of a key above its last one. */
  lemma {:induction false} WithKeyAbove<T>(es: seq<Keyed<T>>, q: int)
    requires SortedByKey(es) && |es| > 0 && es[|es| - 1].key < q
    ensures WithKey(es, q) == []
    decreases |es|
  {
    if |es| > 1 {
      WithKeyAbove(es[..|es| - 1], q);
    }
  }

  /** Any sorted arrangement that keeps each key's entries in their original order is this sort's result. */
  lemma SortIsUnique<T>(es: seq<Keyed<T>>, r: seq<Keyed<T>>)
    requires SortedByKey(r) && forall q :: WithKey(r, q) == WithKey(es, q)
    ensures r == SortByKey(es)
  {
    forall q ensures WithKey(SortByKey(es), q) == WithKey(r, q) {
      SortStable(es, q);
    }
    SortedUnique(SortByKey(es), r);
  }

}

=== FILE: store.dfy ===
/**
 The store client's one entry point, `wc_get`, and the error guard every
 store handler applies to what it fetched.
 */
module Store {
  import opened Wrappers
  import Text
  import opened JsonValue
  import opened Upstream
  import opened Tools

  /**
   The request `wcapi.get(endpoint, params=params)` sends. The client
   library adds the store URL, the API version prefix and the consumer-key
   authentication itself, so no header is set here.
   */
  function StoreRequest(endpoint: string, params: map<string, Value>): Request {
    Request("GET", endpoint, Some(params), None, map[], Timeout)
  }

  /** `wc_get`: exactly one request, whose outcome is normalised without ever raising. */
  function StoreGet(oracle: Oracle, endpoint: string, params: map<string, Value>): (x: Exchange)
    ensures x.calls == [StoreRequest(endpoint, params)]
    ensures Delivers(oracle(x.calls[0])) ==> x.value == oracle(x.calls[0]).body.value
    ensures !Delivers(oracle(x.calls[0])) ==> x.value == ErrorObject(Str(ExceptionText(oracle(x.calls[0]))))
  {
    var request := StoreRequest(endpoint, params);
    Exchange(StoreResult(oracle(request)), [request])
  }

  /**
   `if "error" in v: return [Error: v['error']]`: the result the guard
   returns, or `None` when it lets `v` through. An array holding the string
   "error", or a string containing "error", passes the membership test and
   then cannot be indexed by a string.
   */
  function ErrorGuard(v: Value): (r: Option<ToolResult>)
    ensures v.Obj? ==> (r.Some? <==> "error" in v.fields)
    ensures v.Obj? && "error" in v.fields ==> r == Some(Blocks([ErrorText(v.fields["error"])]))
    ensures v.Arr? ==> (r.Some? <==> Str("error") in v.items)
    ensures v.Arr? && r.Some? ==> r.value == Raised(TypeError)
    ensures v.Str? ==> r == if Text.Occurs("error", v.s) then Some(Raised(TypeError)) else None
    ensures v.Null? || v.Bool? || v.Num? ==> r == Some(Raised(TypeError))
  {
    match Contains(v, "error")
    case Err(fault) => Some(Raised(fault))
    case Ok(found) =>
      if !found then None
      else
        match Index(v, "error")
        case Ok(detail) => Some(Blocks([ErrorText(detail)]))
        case Err(fault) => Some(Raised(fault))
  }

  /** Every failure `wc_get` reports reaches the caller as "Error: <message>". */
  lemma FailureReported(oracle: Oracle, endpoint: string, params: map<string, Value>)
    requires !Delivers(oracle(StoreRequest(endpoint, params)))
    ensures ErrorGuard(StoreGet(oracle, endpoint, params).value)
            == Some(Blocks([ErrorText(Str(ExceptionText(oracle(StoreRequest(endpoint, params)))))]))
  {
  }
}

=== FILE: text.dfy ===
/**
 String helpers with the meaning Python gives them: `str.strip()`, `str.lstrip(c)`,
 `c in s`, `s.find(c)` and `str(n)` for integers.
 */
module Text {
  import opened Wrappers

  /** The characters for which Python's `str.isspace()` holds. */
  predicate IsSpace(c: char) {
    var n := c as int;
    || n == 0x20
    || 0x09 <= n <= 0x0D
    || 0x1C <= n <= 0x1F
    || n == 0x85
    || n == 0xA0
    || n == 0x1680
    || 0x2000 <= n <= 0x200A
    || n == 0x2028
    || n == 0x2029
    || n == 0x202F
    || n == 0x205F
    || n == 0x3000
  }

  /** The number of whitespace characters `s` starts with. */
  function LeadingSpaces(s: string): (i: nat)
    ensures i <= |s|
    ensures forall k :: 0 <= k < i ==> IsSpace(s[k])
    ensures i == |s| || !IsSpace(s[i])
  {
    if |s| > 0 && IsSpace(s[0]) then 1 + LeadingSpaces(s[1..]) else 0
  }

  /** The position at which the whitespace ending `s` starts, never below `lo`. */
  function TrailingStart(s: string, lo: nat): (j: nat)
    requires lo <= |s|
    ensures lo <= j <= |s|
    ensures forall k :: j <= k < |s| ==> IsSpace(s[k])
    ensures j == lo || !IsSpace(s[j - 1])
    decreases |s|
  {
    if |s| > lo && IsSpace(s[|s| - 1]) then TrailingStart(s[..|s| - 1], lo) else |s|
  }

  /** `s.strip()`: the infix of `s` left once whitespace is removed at both ends. */
  function Strip(s: string): (r: string)
    ensures exists i, j :: 0 <= i <= j <= |s| && r == s[i..j]
                           && (forall k :: 0 <= k < i ==> IsSpace(s[k]))
                           && (forall k :: j <= k < |s| ==> IsSpace(s[k]))
    ensures r == [] || (!IsSpace(r[0]) && !IsSpace(r[|r| - 1]))
  {
    var i := LeadingSpaces(s);
    var j := TrailingStart(s, i);
    s[i..j]
  }

  /** The number of copies of `c` that `s` starts with. */
  function LeadingCount(s: string, c: char): (i: nat)
    ensures i <= |s|
    ensures forall k :: 0 <= k < i ==> s[k] == c
    ensures i == |s| || s[i] != c
  {
    if |s| > 0 && s[0] == c then 1 + LeadingCount(s[1..], c) else 0
  }

  /** `s.lstrip(c)`: drops every leading occurrence of `c`. */
  function TrimLeading(s: string, c: char): (r: string)
    ensures exists i :: 0 <= i <= |s| && r == s[i..] && forall k :: 0 <= k < i ==> s[k] == c
    ensures r == [] || r[0] != c
  {
    s[LeadingCount(s, c)..]
  }

  /** `s.find(c)`, with `None` for Python's `-1`: the position of the first `c`. */
  function FirstIndex(s: string, c: char): (r: Option<nat>)
    ensures r.None? <==> c !in s
    ensures r.Some? ==> r.value < |s| && s[r.value] == c && c !in s[..r.value]
  {
    if |s| == 0 then None
    else if s[0] == c then Some(0)
    else
      match FirstIndex(s[1..], c)
      case None => None
      case Some(i) =>
        assert s[..i + 1] == [s[0]] + s[1..][..i];
        Some(i + 1)
  }

  /** Python's `needle in hay` for two strings: a contiguous occurrence. */
  predicate Occurs(needle: string, hay: string) {
    exists i :: 0 <= i <= |hay| && needle <= hay[i..]
  }

  function DigitChar(d: int): (c: char)
    requires 0 <= d < 10
    ensures '0' <= c <= '9'
  {
    ('0' as int + d) as char
  }

  predicate IsDigits(s: string) {
    forall k :: 0 <= k < |s| ==> '0' <= s[k] <= '9'
  }

  /** The number a string of decimal digits denotes. */
  function DigitsValue(s: string): nat
    requires IsDigits(s)
  {
    if |s| == 0 then 0 else 10 * DigitsValue(s[..|s| - 1]) + (s[|s| - 1] as int - '0' as int)
  }

  /** `str(n)` for a non-negative integer: its decimal digits without leading zeros. */
  function NatToDecimal(n: nat): (r: string)
    ensures |r| >= 1 && IsDigits(r)
    ensures DigitsValue(r) == n
    ensures |r| > 1 ==> r[0] != '0'
  {
    if n < 10 then [DigitChar(n)]
    else
      var r := NatToDecimal(n / 10) + [DigitChar(n % 10)];
      assert r[..|r| - 1] == NatToDecimal(n / 10);
      r
  }

  /** `str(n)` for any Python integer. */
  function IntToDecimal(n: int): (r: string)
    ensures n < 0 <==> (|r| > 0 && r[0] == '-')
    ensures n >= 0 ==> IsDigits(r) && DigitsValue(r) == n
    ensures n < 0 ==> IsDigits(r[1..]) && DigitsValue(r[1..]) == -n
    ensures n >= 0 && |r| > 1 ==> r[0] != '0'
    ensures n < 0 ==> |r| > 1 && r[1] != '0'
  {
    if n < 0 then
      var r := "-" + NatToDecimal(-n);
      assert r[1..] == NatToDecimal(-n);
      r
    else NatToDecimal(n)
  }
}

=== FILE: tools.dfy ===
/** What a tool invocation produces. */
module Tools {
  import opened JsonValue
  import opened Upstream

  /** One text block of a tool result. */
  datatype Content =
    | Plain(text: string)         // a fixed message
    | ErrorText(detail: Value)    // the f-string "Error: {detail}"
    | JsonText(value: Value)      // `json.dumps(value, indent=2)`
    | SalesSummary(orders: Value) // the sales-trend summary of a non-empty order list

  /**
   The blocks a handler returns, the exception that escapes it, or a
   pagination that had not ended within the pages the model allows.
   */
  datatype ToolResult = Blocks(contents: seq<Content>) | Raised(fault: Fault) | Unfinished

  /** A handler's result and the requests it sent, in order. */
  datatype Run = Run(result: ToolResult, calls: seq<Request>)

  /** Makes the one request of `x` part of a run that ends in `result`. */
  function Answer(x: Exchange): Run {
    Run(Blocks([JsonText(x.value)]), x.calls)
  }

  /** A run that stops before any request, with one text block. */
  function Refuse(message: string): Run {
    Run(Blocks([Plain(message)]), [])
  }
}

=== FILE: upstream.dfy ===
/**
 The boundary to the REST backends. A real HTTP exchange is replaced by an
 oracle from the request that would be sent to the outcome it would meet;
 handlers return the requests they made, so "no request was attempted" is a
 statement about that list.
 */
module Upstream {
  import opened Wrappers
  import opened JsonValue

  /** One HTTP request as the helpers hand it to the HTTP library. */
  datatype Request = Request(
    verb: string,
    url: string,
    params: Option<map<string, Value>>,
    body: Option<Value>,
    headers: map<string, string>,
    timeout: nat)

  /**
   What an HTTP call ends in: an exception before any response (its text), or
   a response with its status, its body if the body decodes as JSON, the text
   of the exception `raise_for_status` raises for an error status, and the
   text of the exception decoding an undecodable body raises.
   */
  datatype Outcome =
    | NoResponse(message: string)
    | Responded(status: int, body: Option<Value>, statusError: string, decodeError: string)

  type Oracle = Request -> Outcome

  /** A helper's normalised value together with the requests it sent. */
  datatype Exchange = Exchange(value: Value, calls: seq<Request>)

  /** Every request is sent with a 30-second timeout. */
  const Timeout: nat := 30

  /** `{"success": true}`, the value a 204 No Content response becomes. */
  const SuccessObject: Value := Obj(map["success" := Bool(true)])

  /** `raise_for_status` raises for the client and server error classes. */
  predicate RaisesForStatus(status: int) {
    400 <= status < 600
  }

  /** The outcome carries a decoded body the helpers can pass on. */
  predicate Delivers(outcome: Outcome) {
    outcome.Responded? && !RaisesForStatus(outcome.status) && outcome.body.Some?
  }

  /** The text of the exception the first failing step raises: the call, `raise_for_status`, or decoding. */
  function ExceptionText(outcome: Outcome): string {
    match outcome
    case NoResponse(message) => message
    case Responded(status, _, statusError, decodeError) =>
      if RaisesForStatus(status) then statusError else decodeError
  }

  /**
   The store client's normalisation: the decoded body when the response has
   a non-error status and decodes, otherwise `{"error": <exception text>}`.
   A 204 gets no special treatment: its empty body does not decode.
   */
  function StoreResult(outcome: Outcome): (v: Value)
    ensures Delivers(outcome) ==> v == outcome.body.value
    ensures !Delivers(outcome) ==> v == ErrorObject(Str(ExceptionText(outcome)))
  {
    match outcome
    case NoResponse(message) => ErrorObject(Str(message))
    case Responded(status, body, statusError, decodeError) =>
      if RaisesForStatus(status) then ErrorObject(Str(statusError))
      else if body.None? then ErrorObject(Str(decodeError))
      else body.value
  }

  /**
   The error detail the ticketing helpers report: `field` of the error body
   when that body decodes to an object holding it, otherwise the exception
   text (also when the body is an array, whose missing `get` is swallowed).
   */
  function ErrorDetail(outcome: Outcome, field: string): Value {
    match outcome
    case Responded(status, Some(Obj(fields)), _, _) =>
      if RaisesForStatus(status) && field in fields then fields[field] else Str(ExceptionText(outcome))
    case _ => Str(ExceptionText(outcome))
  }

  /**
   The ticketing helpers' normalisation: `{"success": true}` for a 204, the
   decoded body for any other non-error status, and `{"error": detail}` for
   every failure, where the detail prefers the body's `field`.
   */
  function HelperResult(outcome: Outcome, field: string): (v: Value)
    ensures outcome.Responded? && !RaisesForStatus(outcome.status) && outcome.status == 204 ==> v == SuccessObject
    ensures Delivers(outcome) && outcome.status != 204 ==> v == outcome.body.value
    ensures outcome.Responded? && RaisesForStatus(outcome.status) && outcome.body.Some? && outcome.body.value.Obj?
            && field in outcome.body.value.fields
            ==> v == ErrorObject(outcome.body.value.fields[field])
    ensures !Delivers(outcome) && !(outcome.Responded? && outcome.status == 204)
            && !(outcome.Responded? && outcome.body.Some? && outcome.body.value.Obj? && field in outcome.body.value.fields)
            ==> v == ErrorObject(Str(ExceptionText(outcome)))
  {
    match outcome
    case NoResponse(message) => ErrorObject(Str(message))
    case Responded(status, body, statusError, decodeError) =>
      if RaisesForStatus(status) then ErrorObject(ErrorDetail(outcome, field))
      else if status == 204 then SuccessObject
      else if body.None? then ErrorObject(Str(decodeError))
      else body.value
  }
}

=== FILE: utf8.dfy ===
/**
 UTF-8 as `str.encode()` produces it (section 3 of RFC 3629): each Unicode
 scalar value becomes one to four octets. The decoder accepts exactly the
 encoder's output shapes, so the two are inverse.
 */
module Utf8 {
  import opened Wrappers
  import opened Bytes

  /** The octets of one code point. */
  function EncodeChar(c: char): (r: seq<Byte>)
    ensures 1 <= |r| <= 4
    ensures |r| == 1 <==> (c as int) < 0x80
    ensures forall k :: 1 <= k < |r| ==> 0x80 <= r[k] < 0xC0
  {
    var n := c as int;
    if n < 0x80 then [n]
    else if n < 0x800 then [0xC0 + n / 64, 0x80 + n % 64]
    else if n < 0x10000 then [0xE0 + n / 4096, 0x80 + (n / 64) % 64, 0x80 + n % 64]
    else [0xF0 + n / 262144, 0x80 + (n / 4096) % 64, 0x80 + (n / 64) % 64, 0x80 + n % 64]
  }

  function Encode(s: string): (r: seq<Byte>)
    ensures |r| >= |s|
  {
    if |s| == 0 then [] else EncodeChar(s[0]) + Encode(s[1..])
  }

  /** The number of octets a sequence starting with lead octet `b` has, or 0 when `b` cannot lead. */
  function SequenceLength(b: Byte): nat {
    if b < 0x80 then 1
    else if 0xC0 <= b < 0xE0 then 2
    else if 0xE0 <= b < 0xF0 then 3
    else if 0xF0 <= b < 0xF8 then 4
    else 0
  }

  predicate IsScalar(n: int) {
    (0 <= n < 0xD800) || (0xE000 <= n < 0x110000)
  }

  /** The smallest code point that needs `len` octets; anything smaller is an overlong form. */
  function MinOfLength(len: nat): int {
    if len <= 1 then 0 else if len == 2 then 0x80 else if len == 3 then 0x800 else 0x10000
  }

  /** The bits a continuation octet carries. */
  function Low6(b: Byte): int {
    b as int - 0x80
  }

  /** The code point `len` octets at the front of `bs` spell, lead bits removed. */
  function Assemble(bs: seq<Byte>, len: nat): int
    requires 1 <= len <= 4 && len <= |bs|
  {
    var b0 := bs[0] as int;
    if len == 1 then b0
    else if len == 2 then (b0 - 0xC0) * 64 + Low6(bs[1])
    else if len == 3 then (b0 - 0xE0) * 4096 + Low6(bs[1]) * 64 + Low6(bs[2])
    else (b0 - 0xF0) * 262144 + Low6(bs[1]) * 4096 + Low6(bs[2]) * 64 + Low6(bs[3])
  }

  /**
   The first code point of `bs` and the number of octets it takes, or `None`
   when `bs` does not start with a well-formed sequence (a bad lead octet, a
   missing or bad continuation octet, an overlong form, a surrogate, or a
   value beyond U+10FFFF).
   */
  function DecodeChar(bs: seq<Byte>): (r: Option<(char, nat)>)
    ensures r.Some? ==> 1 <= r.value.1 <= |bs|
  {
    if |bs| == 0 then None
    else
      var len := SequenceLength(bs[0]);
      if len == 0 || |bs| < len then None
      else if exists k :: 1 <= k < len && !(0x80 <= bs[k] < 0xC0) then None
      else
        var n := Assemble(bs, len);
        if !IsScalar(n) || n < MinOfLength(len) then None
        else Some((n as char, len))
  }

  /** The text `bs` encodes, or `None` when `bs` is not well-formed UTF-8. */
  function Decode(bs: seq<Byte>): Option<string>
    decreases |bs|
  {
    if |bs| == 0 then Some([])
    else
      match DecodeChar(bs)
      case None => None
      case Some((c, len)) =>
        match Decode(bs[len..])
        case None => None
        case Some(rest) => Some([c] + rest)
  }

  /** One code point's octets decode back to it, whatever follows them. */
  lemma DecodeEncodeChar(c: char, rest: seq<Byte>)
    ensures DecodeChar(EncodeChar(c) + rest) == Some((c, |EncodeChar(c)|))
  {
    var e := EncodeChar(c);
    var bs := e + rest;
    assert bs[..|e|] == e;
    AssembleEncoded(c, bs);
  }

  /** The octets of `c`, read back at the front of `bs`, give `c` and pass every check. */
  lemma AssembleEncoded(c: char, bs: seq<Byte>)
    requires |EncodeChar(c)| <= |bs| && bs[..|EncodeChar(c)|] == EncodeChar(c)
    ensures SequenceLength(bs[0]) == |EncodeChar(c)|
    ensures Assemble(bs, |EncodeChar(c)|) == c as int
    ensures forall k :: 1 <= k < |EncodeChar(c)| ==> 0x80 <= bs[k] < 0xC0
    ensures MinOfLength(|EncodeChar(c)|) <= c as int
  {
    var e := EncodeChar(c);
    var n := c as int;
    assert forall k :: 0 <= k < |e| ==> bs[k] == e[k] by {
      forall k | 0 <= k < |e| ensures bs[k] == e[k] {
        assert bs[..|e|][k] == bs[k];
      }
    }
    if n < 0x80 {
    } else if n < 0x800 {
      SplitTwo(n);
    } else if n < 0x10000 {
      SplitThree(n);
    } else {
      SplitFour(n);
    }
  }

  lemma SplitTwo(n: int)
    requires 0x80 <= n < 0x800
    ensures 0xC0 <= 0xC0 + n / 64 < 0xE0
    ensures (n / 64) * 64 + n % 64 == n
  {
  }

  lemma SplitThree(n: int)
    requires 0x800 <= n < 0x10000
    ensures 0xE0 <= 0xE0 + n / 4096 < 0xF0
    ensures (n / 4096) * 4096 + ((n / 64) % 64) * 64 + n % 64 == n
  {
  }

  lemma SplitFour(n: int)
    requires 0x10000 <= n < 0x110000
    ensures 0xF0 <= 0xF0 + n / 262144 < 0xF8
    ensures (n / 262144) * 262144 + ((n / 4096) % 64) * 4096 + ((n / 64) % 64) * 64 + n % 64 == n
  {
  }

  /** Decoding undoes encoding. */
  lemma {:induction false} DecodeEncode(s: string)
    ensures Decode(Encode(s)) == Some(s)
  {
    if |s| > 0 {
      var e := EncodeChar(s[0]);
      var rest := Encode(s[1..]);
      DecodeEncodeChar(s[0], rest);
      assert (e + rest)[|e|..] == rest;
      DecodeEncode(s[1..]);
      assert [s[0]] + s[1..] == s;
    }
  }
}

=== FILE: woocommerce.dfy ===
/**
 The WooCommerce analytics dispatcher: four store tools, each a pure
 function of the tool arguments and the store's answers, and the
 fallthrough for any other name.
 */
module WooCommerce {
  import opened Wrappers
  import opened JsonValue
  import opened Upstream
  import opened Tools
  import opened Store
  import Seqs
  import opened StableSort
  import opened LowStock

  /** The names `list_tools` advertises, in its order. */
  const ToolNames: seq<string> := ["get_products", "get_orders", "analyze_sales_trends", "get_low_stock_products"]

  /** The query of `get_products`: the page size (10 unless given) and the category only when it is truthy. */
  function ProductsParams(args: map<string, Value>): (params: map<string, Value>)
    ensures "per_page" in params && params["per_page"] == Lookup(args, "per_page", Num(10))
    ensures "category" in params <==> "category" in args && Truthy(args["category"])
    ensures "category" in params ==> params["category"] == args["category"]
    ensures params.Keys <= {"per_page", "category"}
  {
    var category := Lookup(args, "category", Null);
    map["per_page" := Lookup(args, "per_page", Num(10))]
      + (if Truthy(category) then map["category" := category] else map[])
  }

  /**
   The query of `get_orders`: page size (10 unless given), status ("any"
   unless given), and `after` / `before` only when they are truthy.
   */
  function OrdersParams(args: map<string, Value>): (params: map<string, Value>)
    ensures "per_page" in params && params["per_page"] == Lookup(args, "per_page", Num(10))
    ensures "status" in params && params["status"] == Lookup(args, "status", Str("any"))
    ensures forall k :: k in {"after", "before"} ==>
              (k in params <==> k in args && Truthy(args[k])) && (k in params ==> params[k] == args[k])
    ensures params.Keys <= {"per_page", "status", "after", "before"}
  {
    var after := Lookup(args, "after", Null);
    var before := Lookup(args, "before", Null);
    map["per_page" := Lookup(args, "per_page", Num(10)), "status" := Lookup(args, "status", Str("any"))]
      + (if Truthy(after) then map["after" := after] else map[])
      + (if Truthy(before) then map["before" := before] else map[])
  }

  /** The fields reported for a product; `total_sales` is 0 when absent. */
  function ProductSummary(p: Value): (r: Result<Value, Fault>)
    ensures r.Ok? <==> p.Obj?
    ensures r.Err? ==> r.error == AttributeError
    ensures r.Ok? ==> r.value.Obj? && r.value.fields.Keys == {"id", "name", "sku", "price", "stock_quantity", "total_sales"}
    ensures r.Ok? ==> forall k :: k in {"id", "name", "sku", "price", "stock_quantity"} ==> r.value.fields[k] == Lookup(p.fields, k, Null)
    ensures r.Ok? ==> r.value.fields["total_sales"] == Lookup(p.fields, "total_sales", Num(0))
  {
    match p
    case Obj(fields) =>
      Ok(Obj(map["id" := Lookup(fields, "id", Null),
                 "name" := Lookup(fields, "name", Null),
                 "sku" := Lookup(fields, "sku", Null),
                 "price" := Lookup(fields, "price", Null),
                 "stock_quantity" := Lookup(fields, "stock_quantity", Null),
                 "total_sales" := Lookup(fields, "total_sales", Num(0))]))
    case _ => Err(AttributeError)
  }

  /**
   The fields reported for an order; `line_items` becomes the number of line
   items (none when absent), and `len` of a scalar raises.
   */
  function OrderSummary(o: Value): (r: Result<Value, Fault>)
    ensures r.Ok? <==> o.Obj? && Len(Lookup(o.fields, "line_items", Arr([]))).Ok?
    ensures !o.Obj? ==> r == Err(AttributeError)
    ensures r.Ok? ==> r.value.Obj? && r.value.fields.Keys == {"id", "status", "total", "date_created", "customer_id", "line_items"}
    ensures r.Ok? ==> forall k :: k in {"id", "status", "total", "date_created", "customer_id"} ==> r.value.fields[k] == Lookup(o.fields, k, Null)
    ensures r.Ok? ==> r.value.fields["line_items"] == Num(Len(Lookup(o.fields, "line_items", Arr([]))).value)
  {
    match o
    case Obj(fields) =>
      (match Len(Lookup(fields, "line_items", Arr([])))
       case Err(fault) => Err(fault)
       case Ok(count) =>
         Ok(Obj(map["id" := Lookup(fields, "id", Null),
                    "status" := Lookup(fields, "status", Null),
                    "total" := Lookup(fields, "total", Null),
                    "date_created" := Lookup(fields, "date_created", Null),
                    "customer_id" := Lookup(fields, "customer_id", Null),
                    "line_items" := Num(count)])))
    case _ => Err(AttributeError)
  }

  /**
   The shared tail of the two listing tools: report an error object, else
   project every fetched record in order and serialise the list.
   */
  function Listing(x: Exchange, summary: Value -> Result<Value, Fault>): Run {
    match ErrorGuard(x.value)
    case Some(refusal) => Run(refusal, x.calls)
    case None =>
      match Elements(x.value)
      case Err(fault) => Run(Raised(fault), x.calls)
      case Ok(records) =>
        match Seqs.MapAll(summary, records)
        case Err(fault) => Run(Raised(fault), x.calls)
        case Ok(rows) => Run(Blocks([JsonText(Arr(rows))]), x.calls)
  }

  function GetProducts(oracle: Oracle, args: map<string, Value>): Run {
    Listing(StoreGet(oracle, "products", ProductsParams(args)), ProductSummary)
  }

  function GetOrders(oracle: Oracle, args: map<string, Value>): Run {
    Listing(StoreGet(oracle, "orders", OrdersParams(args)), OrderSummary)
  }

  /**
   A listing tool sends its one query; an error object becomes "Error:
   <message>"; a list is answered by its records projected one for one, in
   order.
   */
  lemma ListingOutcome(x: Exchange, summary: Value -> Result<Value, Fault>)
    ensures Listing(x, summary).calls == x.calls
    ensures x.value.Obj? && "error" in x.value.fields ==>
              Listing(x, summary).result == Blocks([ErrorText(x.value.fields["error"])])
    ensures x.value.Arr? && Str("error") !in x.value.items && (forall i :: 0 <= i < |x.value.items| ==> summary(x.value.items[i]).Ok?) ==>
              exists rows: seq<Value> ::
                && Listing(x, summary).result == Blocks([JsonText(Arr(rows))])
                && |rows| == |x.value.items|
                && forall i :: 0 <= i < |rows| ==> summary(x.value.items[i]) == Ok(rows[i])
  {
    if x.value.Arr? && Str("error") !in x.value.items && (forall i :: 0 <= i < |x.value.items| ==> summary(x.value.items[i]).Ok?) {
      var rows := Seqs.MapAll(summary, x.value.items).value;
      assert Listing(x, summary).result == Blocks([JsonText(Arr(rows))]);
    }
  }

  /** `get_products` asks the store once, for its page size and optional category. */
  lemma ProductsRequest(oracle: Oracle, args: map<string, Value>)
    ensures GetProducts(oracle, args).calls == [StoreRequest("products", ProductsParams(args))]
  {
    ListingOutcome(StoreGet(oracle, "products", ProductsParams(args)), ProductSummary);
  }

  /** `get_orders` asks the store once, for its page size, status and optional date bounds. */
  lemma OrdersRequest(oracle: Oracle, args: map<string, Value>)
    ensures GetOrders(oracle, args).calls == [StoreRequest("orders", OrdersParams(args))]
  {
    ListingOutcome(StoreGet(oracle, "orders", OrdersParams(args)), OrderSummary);
  }

  /** The date bounds of the sales-trend query: `start_date.isoformat()` and `end_date.isoformat()`. */
  datatype DateRange = DateRange(after: string, before: string)

  /** The query of `analyze_sales_trends`: 100 completed orders in the date range. */
  function TrendParams(range: DateRange): map<string, Value> {
    map["per_page" := Num(100), "after" := Str(range.after), "before" := Str(range.before), "status" := Str("completed")]
  }

  /**
   `analyze_sales_trends` up to its aggregation. `window(days)` is the date
   range ending now and starting `days` days earlier (30 unless given), or
   the exception computing it raises. The aggregation reads every order with
   `o.get`, so anything but a list of objects raises there.
   */
  function AnalyzeSalesTrends(oracle: Oracle, window: Value -> Result<DateRange, Fault>, args: map<string, Value>): Run {
    match window(Lookup(args, "days", Num(30)))
    case Err(fault) => Run(Raised(fault), [])
    case Ok(range) =>
      var x := StoreGet(oracle, "orders", TrendParams(range));
      match ErrorGuard(x.value)
      case Some(refusal) => Run(refusal, x.calls)
      case None =>
        if !Truthy(x.value) then Run(Blocks([Plain("No orders found in date range")]), x.calls)
        else
          match Elements(x.value)
          case Err(fault) => Run(Raised(fault), x.calls)
          case Ok(orders) =>
            if forall i :: 0 <= i < |orders| ==> orders[i].Obj? then Run(Blocks([SalesSummary(x.value)]), x.calls)
            else Run(Raised(AttributeError), x.calls)
  }

  /**
   The sales-trend tool raises without a request when the window cannot be
   computed; otherwise it sends one query for the window, a store failure is
   reported as "Error: <message>", an empty answer as "No orders found in
   date range", and a non-empty list of order objects, and nothing else,
   reaches the aggregation.
   */
  lemma TrendGuards(oracle: Oracle, window: Value -> Result<DateRange, Fault>, args: map<string, Value>)
    ensures window(Lookup(args, "days", Num(30))).Err? ==>
              AnalyzeSalesTrends(oracle, window, args) == Run(Raised(window(Lookup(args, "days", Num(30))).error), [])
    ensures window(Lookup(args, "days", Num(30))).Ok? ==>
            var range := window(Lookup(args, "days", Num(30))).value;
            var request := StoreRequest("orders", TrendParams(range));
            var run := AnalyzeSalesTrends(oracle, window, args);
            && run.calls == [request]
            && (!Delivers(oracle(request)) ==> run.result == Blocks([ErrorText(Str(ExceptionText(oracle(request))))]))
            && (Delivers(oracle(request)) && oracle(request).body.value == Arr([]) ==>
                  run.result == Blocks([Plain("No orders found in date range")]))
            && (Delivers(oracle(request)) && oracle(request).body.value.Arr? && |oracle(request).body.value.items| > 0
                && (forall i :: 0 <= i < |oracle(request).body.value.items| ==> oracle(request).body.value.items[i].Obj?) ==>
                  run.result == Blocks([SalesSummary(oracle(request).body.value)]))
            && (run.result.Blocks? && |run.result.contents| == 1 && run.result.contents[0].SalesSummary? ==>
                  && Delivers(oracle(request)) && oracle(request).body.value.Arr? && |oracle(request).body.value.items| > 0
                  && forall i :: 0 <= i < |oracle(request).body.value.items| ==> oracle(request).body.value.items[i].Obj?)
  {
    if window(Lookup(args, "days", Num(30))).Err? {
      return;
    }
    var range := window(Lookup(args, "days", Num(30))).value;
    var request := StoreRequest("orders", TrendParams(range));
    if !Delivers(oracle(request)) {
      FailureReported(oracle, "orders", TrendParams(range));
    } else {
      var v := oracle(request).body.value;
      if (v.Obj? || v.Str?) && Truthy(v) {
        var orders := Elements(v).value;
        assert orders[0] in orders;
      } else if v.Arr? && Str("error") in v.items {
        var k :| 0 <= k < |v.items| && v.items[k] == Str("error");
        assert !v.items[k].Obj?;
      }
    }
  }

  /**
   `get_low_stock_products` with at most `budget` page requests: the scan,
   then the filter, the sort, and the report echoing the threshold (10
   unless given).
   */
  function GetLowStockProducts(oracle: Oracle, budget: nat, args: map<string, Value>): Run {
    var threshold := Lookup(args, "threshold", Num(10));
    var scan := ScanFrom(Steps(oracle), 1, budget);
    match scan.end
    case OutOfPages => Run(Unfinished, scan.calls)
    case Halted(fault) => Run(Raised(fault), scan.calls)
    case Finished =>
      match SelectLowStock(scan.products, threshold)
      case Err(fault) => Run(Raised(fault), scan.calls)
      case Ok(entries) => Run(Blocks([JsonText(Report(SortByKey(entries), threshold))]), scan.calls)
  }

  /**
   A finished low-stock report lists exactly the kept products, projected,
   ordered by stock quantity, with equal quantities in fetched order (the
   order `list.sort` keeps); its count is its length and its threshold is
   the one used.
   */
  lemma LowStockReport(oracle: Oracle, budget: nat, args: map<string, Value>)
    requires GetLowStockProducts(oracle, budget, args).result.Blocks?
    ensures var threshold := Lookup(args, "threshold", Num(10));
            var scan := ScanFrom(Steps(oracle), 1, budget);
            var entries := SelectLowStock(scan.products, threshold);
            && scan.end == Finished
            && entries.Ok?
            && GetLowStockProducts(oracle, budget, args).result == Blocks([JsonText(Report(SortByKey(entries.value), threshold))])
            && SortedByKey(SortByKey(entries.value))
            && multiset(SortByKey(entries.value)) == multiset(entries.value)
            && (forall q :: WithKey(SortByKey(entries.value), q) == WithKey(entries.value, q))
  {
    var threshold := Lookup(args, "threshold", Num(10));
    var entries := SelectLowStock(ScanFrom(Steps(oracle), 1, budget).products, threshold).value;
    forall q ensures WithKey(SortByKey(entries), q) == WithKey(entries, q) {
      SortStable(entries, q);
    }
  }

  /**
   A store failure on the first page is not reported: the loop treats the
   error object like a last page, and the report lists no products.
   */
  lemma FailedFirstPageReportsNothing(oracle: Oracle, budget: nat, args: map<string, Value>)
    requires budget > 0 && !Delivers(oracle(PageRequest(1)))
    ensures GetLowStockProducts(oracle, budget, args)
            == Run(Blocks([JsonText(Report([], Lookup(args, "threshold", Num(10))))]), [PageRequest(1)])
  {
    assert FetchStep(oracle, 1) == Stop;
    assert ScanFrom(Steps(oracle), 1, budget) == Scan([], [PageRequest(1)], Finished);
  }

  /** The dispatcher: one handler per advertised name, a fixed message for any other. */
  function CallTool(oracle: Oracle, window: Value -> Result<DateRange, Fault>, budget: nat,
                    name: string, args: map<string, Value>): Run
  {
    if name == "get_products" then GetProducts(oracle, args)
    else if name == "get_orders" then GetOrders(oracle, args)
    else if name == "analyze_sales_trends" then AnalyzeSalesTrends(oracle, window, args)
    else if name == "get_low_stock_products" then GetLowStockProducts(oracle, budget, args)
    else Run(Blocks([Plain("Unknown tool: " + name)]), [])
  }

  /**
   Every advertised name reaches its own handler and none answers "Unknown
   tool"; every other name gets exactly that message without any request.
   */
  lemma AdvertisedNamesDispatched(oracle: Oracle, window: Value -> Result<DateRange, Fault>, budget: nat,
                                  name: string, args: map<string, Value>)
    ensures var run := CallTool(oracle, window, budget, name, args);
            (name in ToolNames <==> run != Run(Blocks([Plain("Unknown tool: " + name)]), []))
  {
    var run := CallTool(oracle, window, budget, name, args);
    var unknown := Blocks([Plain("Unknown tool: " + name)]);
    if name == "get_products" {
      ProductsRequest(oracle, args);
    } else if name == "get_orders" {
      OrdersRequest(oracle, args);
    } else if name == "analyze_sales_trends" {
    }
  }
}

=== FILE: wrappers.dfy ===
/** Failure-carrying datatypes shared by every other module. */
module Wrappers {

  /** A value that may be absent (Python's `None`). */
  datatype Option<+T> = None | Some(value: T)

  /** Either a computed value or the reason the computation stopped. */
  datatype Result<+T, +E> = Ok(value: T) | Err(error: E)
}

=== FILE: zendesk.dfy ===
/**
 The Zendesk Support tools: a request helper that authenticates with an
 API token over HTTP Basic (section 2 of RFC 7617) and normalises every
 outcome to a JSON value, and five ticket and user tools on top of it.
 */
module Zendesk {
  import opened Wrappers
  import opened Text
  import opened JsonValue
  import opened Upstream
  import opened Tools
  import opened DotEnv
  import Utf8
  import Base64

  const Domain: string := "novasignagehelp.zendesk.com"

  /** Every endpoint is relative to this root. */
  const ApiRoot: string := "https://" + Domain + "/api/v2/"

  const MissingCredentials: string := "Zendesk credentials (ZENDESK_EMAIL, ZENDESK_API_TOKEN) not found in .env"

  /** The user and token the `Basic` scheme sends for API-token authentication. */
  function TokenCredentials(email: string, token: string): string {
    email + "/token:" + token
  }

  /**
   The `Authorization` header value, absent when the email or the token is
   unset or empty; otherwise the `Basic` scheme over the base 64 encoding of
   the UTF-8 octets of `email/token:token`.
   */
  function Authorization(env: Env): (r: Option<string>)
    ensures r.None? <==> Blank(Getenv(env, "ZENDESK_EMAIL")) || Blank(Getenv(env, "ZENDESK_API_TOKEN"))
    ensures r.Some? ==> |r.value| > 6 && r.value[..6] == "Basic "
  {
    var email, token := Getenv(env, "ZENDESK_EMAIL"), Getenv(env, "ZENDESK_API_TOKEN");
    if Blank(email) || Blank(token) then None
    else
      var encoded := Base64.Encode(Utf8.Encode(TokenCredentials(email.value, token.value)));
      assert |Utf8.Encode(TokenCredentials(email.value, token.value))| > 0;
      Base64.EncodedLength(Utf8.Encode(TokenCredentials(email.value, token.value)));
      Some("Basic " + encoded)
  }

  /**
   The server recovers exactly the configured email and token from the
   header, and no other text after "Basic " decodes to the same octets.
   */
  lemma CredentialsRecoverable(env: Env)
    requires Authorization(env).Some?
    ensures var header := Authorization(env).value;
            && Base64.Decode(header[6..]).Some?
            && Utf8.Decode(Base64.Decode(header[6..]).value)
               == Some(TokenCredentials(env["ZENDESK_EMAIL"], env["ZENDESK_API_TOKEN"]))
            && forall t :: Base64.Decode(t) == Base64.Decode(header[6..]) ==> t == header[6..]
  {
    var octets := Utf8.Encode(TokenCredentials(env["ZENDESK_EMAIL"], env["ZENDESK_API_TOKEN"]));
    var text := Authorization(env).value[6..];
    assert text == Base64.Encode(octets);
    Base64.DecodeEncode(octets);
    Utf8.DecodeEncode(TokenCredentials(env["ZENDESK_EMAIL"], env["ZENDESK_API_TOKEN"]));
    forall t | Base64.Decode(t) == Base64.Decode(text)
      ensures t == text
    {
      Base64.EncodeDecode(t);
    }
  }

  /** The endpoint joined to the API root, with all its leading slashes removed. */
  function Url(endpoint: string): (url: string)
    ensures exists i :: 0 <= i <= |endpoint| && url == ApiRoot + endpoint[i..]
                        && (forall k :: 0 <= k < i ==> endpoint[k] == '/')
                        && (i == |endpoint| || endpoint[i] != '/')
  {
    ApiRoot + TrimLeading(endpoint, '/')
  }

  function Headers(auth: string): map<string, string> {
    map["Authorization" := auth, "Content-Type" := "application/json"]
  }

  /**
   `zendesk_request`: without credentials, an error object and no request;
   otherwise one request whose outcome is normalised, an error preferring
   the body's `description`.
   */
  function ZendeskRequest(oracle: Oracle, env: Env, verb: string, endpoint: string,
                          params: Option<map<string, Value>>, data: Option<Value>): (x: Exchange)
    ensures Authorization(env).None? <==> x.calls == []
    ensures Authorization(env).None? ==> x.value == ErrorObject(Str(MissingCredentials))
    ensures |x.calls| <= 1
    ensures |x.calls| == 1 ==> x.calls[0].verb == verb && x.calls[0].params == params && x.calls[0].body == data
  {
    match Authorization(env)
    case None => Exchange(ErrorObject(Str(MissingCredentials)), [])
    case Some(auth) =>
      var request := Request(verb, Url(endpoint), params, data, Headers(auth), Timeout);
      Exchange(HelperResult(oracle(request), "description"), [request])
  }

  /** The request `ZendeskRequest` sends once credentials are configured. */
  function SentRequest(env: Env, verb: string, endpoint: string,
                       params: Option<map<string, Value>>, data: Option<Value>): Request
    requires Authorization(env).Some?
  {
    Request(verb, Url(endpoint), params, data, Headers(Authorization(env).value), Timeout)
  }

  /**
   With credentials the helper sends one authenticated request with a
   30-second timeout; a 204 becomes `{"success": true}`, a failure an error
   object whose detail is the error body's `description`, or the exception
   text when there is no such field.
   */
  lemma RequestOutcome(oracle: Oracle, env: Env, verb: string, endpoint: string,
                       params: Option<map<string, Value>>, data: Option<Value>)
    requires Authorization(env).Some?
    ensures var request := SentRequest(env, verb, endpoint, params, data);
            var x := ZendeskRequest(oracle, env, verb, endpoint, params, data);
            var outcome := oracle(request);
            && x.calls == [request]
            && request.headers["Authorization"] == Authorization(env).value
            && request.timeout == 30
            && (outcome.Responded? && !RaisesForStatus(outcome.status) && outcome.status == 204 ==> x.value == SuccessObject)
            && (Delivers(outcome) && outcome.status != 204 ==> x.value == outcome.body.value)
            && (outcome.Responded? && RaisesForStatus(outcome.status) && outcome.body.Some? && outcome.body.value.Obj?
                && "description" in outcome.body.value.fields
                ==> x.value == ErrorObject(outcome.body.value.fields["description"]))
            && (!Delivers(outcome) && !(outcome.Responded? && outcome.status == 204)
                && !(outcome.Responded? && outcome.body.Some? && outcome.body.value.Obj? && "description" in outcome.body.value.fields)
                ==> x.value == ErrorObject(Str(ExceptionText(outcome))))
  {
  }

  /** The body of a comment request: `{"ticket": {"comment": {"body": comment, "public": public}}}`. */
  function CommentBody(comment: Value, public: Value): Value {
    Obj(map["ticket" := Obj(map["comment" := Obj(map["body" := comment, "public" := public])])])
  }

  /** The names the tool definitions advertise, in their order. */
  const ToolNames: seq<string> := ["search_zendesk_tickets", "get_zendesk_ticket", "get_zendesk_ticket_comments",
                                   "add_zendesk_ticket_comment", "search_zendesk_users"]

  /** `handle_zendesk_tool`: one branch per advertised name; any other name yields no blocks. */
  function ZendeskTool(oracle: Oracle, env: Env, name: string, args: map<string, Value>): Run {
    var query := Lookup(args, "query", Null);
    var ticket := Lookup(args, "ticket_id", Null);
    if name == "search_zendesk_tickets" then
      if !Truthy(query) then Refuse("Error: query is required")
      else Answer(ZendeskRequest(oracle, env, "GET", "search.json", Some(map["query" := query]), None))
    else if name == "get_zendesk_ticket" then
      if !Truthy(ticket) then Refuse("Error: ticket_id is required")
      else Answer(ZendeskRequest(oracle, env, "GET", "tickets/" + Format(ticket) + ".json", None, None))
    else if name == "add_zendesk_ticket_comment" then
      var comment := Lookup(args, "comment", Null);
      var public := Lookup(args, "public", Bool(true));
      if !Truthy(ticket) || !Truthy(comment) then Refuse("Error: ticket_id and comment are required")
      else Answer(ZendeskRequest(oracle, env, "PUT", "tickets/" + Format(ticket) + ".json", None, Some(CommentBody(comment, public))))
    else if name == "search_zendesk_users" then
      if !Truthy(query) then Refuse("Error: query is required")
      else Answer(ZendeskRequest(oracle, env, "GET", "users/search.json", Some(map["query" := query]), None))
    else if name == "get_zendesk_ticket_comments" then
      if !Truthy(ticket) then Refuse("Error: ticket_id is required")
      else Answer(ZendeskRequest(oracle, env, "GET", "tickets/" + Format(ticket) + "/comments.json", None, None))
    else Run(Blocks([]), [])
  }

  /** The arguments a tool cannot do without are present (truthy). */
  predicate HasRequired(name: string, args: map<string, Value>) {
    var query := Lookup(args, "query", Null);
    var ticket := Lookup(args, "ticket_id", Null);
    if name in {"search_zendesk_tickets", "search_zendesk_users"} then Truthy(query)
    else if name in {"get_zendesk_ticket", "get_zendesk_ticket_comments"} then Truthy(ticket)
    else Truthy(ticket) && Truthy(Lookup(args, "comment", Null))
  }

  /**
   A tool sends a request exactly when its name is advertised, its required
   arguments are present and credentials are configured.
   */
  lemma RequestsOnlyWhenComplete(oracle: Oracle, env: Env, name: string, args: map<string, Value>)
    ensures var run := ZendeskTool(oracle, env, name, args);
            |run.calls| <= 1
            && (|run.calls| == 1 <==> name in ToolNames && HasRequired(name, args) && Authorization(env).Some?)
  {
  }

  /** A missing required argument is answered with its "Error: ... required" text and no request. */
  lemma MissingArgumentRefused(oracle: Oracle, env: Env, name: string, args: map<string, Value>)
    ensures name in ToolNames && !HasRequired(name, args) ==>
              ZendeskTool(oracle, env, name, args)
              == Refuse(if name in {"search_zendesk_tickets", "search_zendesk_users"} then "Error: query is required"
                        else if name in {"get_zendesk_ticket", "get_zendesk_ticket_comments"} then "Error: ticket_id is required"
                        else "Error: ticket_id and comment are required")
  {
  }

  /**
   The endpoint, method, query and body each tool uses once its arguments
   are present: ticket search, single ticket, comment (public unless told
   otherwise), user search and ticket comments.
   */
  lemma Endpoints(oracle: Oracle, env: Env, name: string, args: map<string, Value>)
    requires name in ToolNames && HasRequired(name, args) && Authorization(env).Some?
    ensures var query := Lookup(args, "query", Null);
            var ticket := Format(Lookup(args, "ticket_id", Null));
            ZendeskTool(oracle, env, name, args).calls ==
              [if name == "search_zendesk_tickets" then SentRequest(env, "GET", "search.json", Some(map["query" := query]), None)
               else if name == "get_zendesk_ticket" then SentRequest(env, "GET", "tickets/" + ticket + ".json", None, None)
               else if name == "add_zendesk_ticket_comment" then
                 SentRequest(env, "PUT", "tickets/" + ticket + ".json", None,
                             Some(CommentBody(args["comment"], if "public" in args then args["public"] else Bool(true))))
               else if name == "search_zendesk_users" then SentRequest(env, "GET", "users/search.json", Some(map["query" := query]), None)
               else SentRequest(env, "GET", "tickets/" + ticket + "/comments.json", None, None)]
  {
  }

  /** Every advertised name is handled; every other name yields an empty list without a request. */
  lemma AdvertisedNamesHandled(oracle: Oracle, env: Env, name: string, args: map<string, Value>)
    ensures name in ToolNames <==> ZendeskTool(oracle, env, name, args) != Run(Blocks([]), [])
  {
  }
}

=== FILE: zendesk_sell.dfy ===
/**
 The Zendesk Sell tools: a request helper that authenticates with a Bearer
 token and normalises every outcome to a JSON value, search and get-by-id
 tools for leads, contacts and deals, and one tool per contact field.
 */
module ZendeskSell {
  import opened Wrappers
  import opened Text
  import opened JsonValue
  import opened Upstream
  import opened Tools
  import opened DotEnv

  const BaseUrl: string := "https://api.getbase.com/v2"

  const MissingToken: string := "Zendesk Sell API token (ZENDESK_SELL_API_TOKEN) not found in .env"

  /** The `Authorization` header value, absent when the token is unset or empty. */
  function Authorization(env: Env): (r: Option<string>)
    ensures r.None? <==> "ZENDESK_SELL_API_TOKEN" !in env || env["ZENDESK_SELL_API_TOKEN"] == []
    ensures r.Some? ==> |r.value| > 7 && r.value[..7] == "Bearer " && r.value[7..] == env["ZENDESK_SELL_API_TOKEN"]
  {
    var token := Getenv(env, "ZENDESK_SELL_API_TOKEN");
    if Blank(token) then None else Some("Bearer " + token.value)
  }

  /** The endpoint joined to the base URL with one `/`, its own leading slashes removed. */
  function Url(endpoint: string): (url: string)
    ensures exists i :: 0 <= i <= |endpoint| && url == BaseUrl + "/" + endpoint[i..]
                        && (forall k :: 0 <= k < i ==> endpoint[k] == '/')
                        && (i == |endpoint| || endpoint[i] != '/')
  {
    BaseUrl + "/" + TrimLeading(endpoint, '/')
  }

  function Headers(auth: string): map<string, string> {
    map["Authorization" := auth, "Accept" := "application/json", "Content-Type" := "application/json"]
  }

  /** The request the helper sends once a token is configured. */
  function SentRequest(env: Env, endpoint: string, params: Option<map<string, Value>>): Request
    requires Authorization(env).Some?
  {
    Request("GET", Url(endpoint), params, None, Headers(Authorization(env).value), Timeout)
  }

  /**
   `zendesk_sell_request` as the tools call it (always `GET`, never a body):
   without a token, an error object and no request; otherwise one request
   whose outcome is normalised, an error preferring the body's `errors`.
   */
  function SellRequest(oracle: Oracle, env: Env, endpoint: string, params: Option<map<string, Value>>): (x: Exchange)
    ensures Authorization(env).None? <==> x.calls == []
    ensures Authorization(env).None? ==> x.value == ErrorObject(Str(MissingToken))
    ensures |x.calls| <= 1
  {
    match Authorization(env)
    case None => Exchange(ErrorObject(Str(MissingToken)), [])
    case Some(auth) =>
      var request := Request("GET", Url(endpoint), params, None, Headers(auth), Timeout);
      Exchange(HelperResult(oracle(request), "errors"), [request])
  }

  /**
   With a token the helper sends one request with a 30-second timeout; a 204
   becomes `{"success": true}`, a failure an error object whose detail is the
   error body's `errors`, or the exception text when there is no such field.
   */
  lemma RequestOutcome(oracle: Oracle, env: Env, endpoint: string, params: Option<map<string, Value>>)
    requires Authorization(env).Some?
    ensures var request := SentRequest(env, endpoint, params);
            var x := SellRequest(oracle, env, endpoint, params);
            var outcome := oracle(request);
            && x.calls == [request]
            && request.headers["Authorization"] == "Bearer " + env["ZENDESK_SELL_API_TOKEN"]
            && request.timeout == 30
            && (outcome.Responded? && !RaisesForStatus(outcome.status) && outcome.status == 204 ==> x.value == SuccessObject)
            && (Delivers(outcome) && outcome.status != 204 ==> x.value == outcome.body.value)
            && (outcome.Responded? && RaisesForStatus(outcome.status) && outcome.body.Some? && outcome.body.value.Obj?
                && "errors" in outcome.body.value.fields
                ==> x.value == ErrorObject(outcome.body.value.fields["errors"]))
            && (!Delivers(outcome) && !(outcome.Responded? && outcome.status == 204)
                && !(outcome.Responded? && outcome.body.Some? && outcome.body.value.Obj? && "errors" in outcome.body.value.fields)
                ==> x.value == ErrorObject(Str(ExceptionText(outcome))))
  {
    assert Authorization(env).value == "Bearer " + env["ZENDESK_SELL_API_TOKEN"];
  }

  /** A search query: every argument whose value is not None, unchanged. */
  function SearchParams(args: map<string, Value>): map<string, Value> {
    map k | k in args && !args[k].Null? :: args[k]
  }

  /** The search tools and the collection each searches. */
  const Searches: map<string, string> :=
    map["search_zendesk_sell_leads" := "leads", "search_zendesk_sell_contacts" := "contacts",
        "search_zendesk_sell_deals" := "deals"]

  /** The get-by-id tools, each with its collection and the argument naming the record. */
  const Lookups: map<string, (string, string)> :=
    map["get_zendesk_sell_lead" := ("leads", "lead_id"), "get_zendesk_sell_contact" := ("contacts", "contact_id"),
        "get_zendesk_sell_deal" := ("deals", "deal_id")]

  /** The common prefix of the contact-field tools. */
  const FieldToolPrefix: string := "get_zendesk_sell_contact_"

  /** The suffixes and display names the tool definitions generate the field tools from. */
  const FieldSuffixes: seq<(string, string)> :=
    [("industry", "Industry"), ("client", "Client"), ("equipment", "Equipment"), ("sample_box", "Sample Box"),
     ("product", "Product"), ("service", "Service"), ("nova_web_id", "NOVA Web ID"),
     ("journey_of_acquisition", "Journey of Acquisition"), ("completed_web_training", "Completed Web Training"),
     ("current_suppliers", "Current Suppliers")]

  /**
   The field tools the handler dispatches, each with the contact field it
   reads, in the order of the handler's mapping (its keys are distinct).
   */
  const FieldTools: seq<(string, string)> :=
    [("get_zendesk_sell_contact_industry", "industry"),
     ("get_zendesk_sell_contact_client", "Client"),
     ("get_zendesk_sell_contact_equipment", "Equipment"),
     ("get_zendesk_sell_contact_sample_box", "Sample Box"),
     ("get_zendesk_sell_contact_product", "Product"),
     ("get_zendesk_sell_contact_service", "Service"),
     ("get_zendesk_sell_contact_nova_web_id", "NOVA Web ID"),
     ("get_zendesk_sell_contact_journey_of_acquisition", "Journey of Acquisition"),
     ("get_zendesk_sell_contact_completed_web_training", "Completed Web Training"),
     ("get_zendesk_sell_contact_current_suppliers", "Current Suppliers")]

  /** The names the handler's mapping dispatches, in its order. */
  function DispatchedFieldTools(): (names: seq<string>)
    ensures |names| == |FieldTools|
    ensures forall i :: 0 <= i < |names| ==> names[i] == FieldTools[i].0
  {
    seq(|FieldTools|, i requires 0 <= i < |FieldTools| => FieldTools[i].0)
  }

  /** `field_tools.get(name)`: the field the entry for `name` reads. */
  function FindField(table: seq<(string, string)>, name: string): (r: Option<string>)
    ensures r.None? <==> forall i :: 0 <= i < |table| ==> table[i].0 != name
    ensures r.Some? ==> exists i :: 0 <= i < |table| && table[i] == (name, r.value)
  {
    if |table| == 0 then None
    else if table[0].0 == name then Some(table[0].1)
    else
      var r := FindField(table[1..], name);
      assert forall i :: 1 <= i < |table| ==> table[i] == table[1..][i - 1];
      r
  }

  /** The generated field-tool names, in definition order. */
  function FieldToolNames(): seq<string> {
    seq(|FieldSuffixes|, i requires 0 <= i < |FieldSuffixes| => FieldToolPrefix + FieldSuffixes[i].0)
  }

  /** The names the tool definitions advertise, in their order. */
  function ToolNames(): seq<string> {
    ["search_zendesk_sell_leads", "get_zendesk_sell_lead", "search_zendesk_sell_contacts",
     "get_zendesk_sell_contact", "search_zendesk_sell_deals", "get_zendesk_sell_deal"] + FieldToolNames()
  }

  /**
   Field tool `i` is named by its suffix. Each case compares literal strings
   character by character, so the cases are proved a few names at a time.
   */
  lemma SuffixName(i: nat)
    requires i < |FieldSuffixes|
    ensures FieldToolPrefix + FieldSuffixes[i].0 == FieldTools[i].0
  {
    if i < 2 { SuffixNames0(i); }
    else if i < 4 { SuffixNames2(i); }
    else if i < 6 { SuffixNames4(i); }
    else if i == 6 { SuffixNames6(i); }
    else if i == 7 { SuffixNames7(i); }
    else if i == 8 { SuffixNames8(i); }
    else { SuffixNames9(i); }
  }

  lemma SuffixNames0(i: nat)
    requires 0 <= i <= 1
    ensures FieldToolPrefix + FieldSuffixes[i].0 == FieldTools[i].0
  {
    if i == 0 { assert FieldToolPrefix + "industry" == "get_zendesk_sell_contact_industry"; }
    else { assert FieldToolPrefix + "client" == "get_zendesk_sell_contact_client"; }
  }

  lemma SuffixNames2(i: nat)
    requires 2 <= i <= 3
    ensures FieldToolPrefix + FieldSuffixes[i].0 == FieldTools[i].0
  {
    if i == 2 { assert FieldToolPrefix + "equipment" == "get_zendesk_sell_contact_equipment"; }
    else { assert FieldToolPrefix + "sample_box" == "get_zendesk_sell_contact_sample_box"; }
  }

  lemma SuffixNames4(i: nat)
    requires 4 <= i <= 5
    ensures FieldToolPrefix + FieldSuffixes[i].0 == FieldTools[i].0
  {
    if i == 4 { assert FieldToolPrefix + "product" == "get_zendesk_sell_contact_product"; }
    else { assert FieldToolPrefix + "service" == "get_zendesk_sell_contact_service"; }
  }

  lemma SuffixNames6(i: nat)
    requires i == 6
    ensures FieldToolPrefix + FieldSuffixes[i].0 == FieldTools[i].0
  {
    assert FieldToolPrefix + "nova_web_id" == "get_zendesk_sell_contact_nova_web_id";
  }

  lemma SuffixNames7(i: nat)
    requires i == 7
    ensures FieldToolPrefix + FieldSuffixes[i].0 == FieldTools[i].0
  {
    assert FieldToolPrefix + "journey_of_acquisition" == "get_zendesk_sell_contact_journey_of_acquisition";
  }

  lemma SuffixNames8(i: nat)
    requires i == 8
    ensures FieldToolPrefix + FieldSuffixes[i].0 == FieldTools[i].0
  {
    assert FieldToolPrefix + "completed_web_training" == "get_zendesk_sell_contact_completed_web_training";
  }

  lemma SuffixNames9(i: nat)
    requires i == 9
    ensures FieldToolPrefix + FieldSuffixes[i].0 == FieldTools[i].0
  {
    assert FieldToolPrefix + "current_suppliers" == "get_zendesk_sell_contact_current_suppliers";
  }

  /** The generated field-tool names are exactly the dispatched ones, in the same order. */
  lemma FieldToolNamesMatch()
    ensures FieldToolNames() == DispatchedFieldTools()
  {
    var names := ["get_zendesk_sell_contact_industry", "get_zendesk_sell_contact_client",
                  "get_zendesk_sell_contact_equipment", "get_zendesk_sell_contact_sample_box",
                  "get_zendesk_sell_contact_product", "get_zendesk_sell_contact_service",
                  "get_zendesk_sell_contact_nova_web_id", "get_zendesk_sell_contact_journey_of_acquisition",
                  "get_zendesk_sell_contact_completed_web_training", "get_zendesk_sell_contact_current_suppliers"];
    forall i | 0 <= i < |names| ensures FieldToolNames()[i] == names[i] {
      SuffixName(i);
    }
    assert DispatchedFieldTools() == names;
  }

  /**
   What a field tool reports from the contact lookup's result: an error
   result unchanged; otherwise the contact id, the field name, and the
   field's value, taken from the standard field when that is truthy and
   from `custom_fields` (possibly None) otherwise. Python raises when the
   result, its `data` or its `custom_fields` are not objects.
   */
  function FieldReport(result: Value, contact: Value, field: string): (r: ToolResult)
    ensures result.Obj? && "error" in result.fields ==> r == Blocks([JsonText(result)])
    ensures result.Null? || result.Bool? || result.Num? ==> r == Raised(TypeError)
    ensures result.Arr? ==> r == if Str("error") in result.items then Blocks([JsonText(result)]) else Raised(AttributeError)
    ensures result.Str? ==> r == if Text.Occurs("error", result.s) then Blocks([JsonText(result)]) else Raised(AttributeError)
    ensures result.Obj? && "error" !in result.fields ==>
              var data := Lookup(result.fields, "data", Obj(map[]));
              var custom := if data.Obj? then Lookup(data.fields, "custom_fields", Obj(map[])) else Null;
              if !data.Obj? then r == Raised(AttributeError)
              else if Truthy(Lookup(data.fields, field, Null)) then
                r == Blocks([JsonText(Obj(map["contact_id" := contact, "field" := Str(field), "value" := data.fields[field]]))])
              else if !custom.Obj? then r == Raised(AttributeError)
              else r == Blocks([JsonText(Obj(map["contact_id" := contact, "field" := Str(field),
                                                 "value" := Lookup(custom.fields, field, Null)]))])
  {
    match Contains(result, "error")
    case Err(fault) => Raised(fault)
    case Ok(failed) =>
      if failed then Blocks([JsonText(result)])
      else
        match Get(result, "data", Obj(map[]))
        case Err(fault) => Raised(fault)
        case Ok(data) =>
          match Get(data, "custom_fields", Obj(map[]))
          case Err(fault) => Raised(fault)
          case Ok(custom) =>
            var standard := Get(data, field, Null).value;
            var value := if Truthy(standard) then Ok(standard) else Get(custom, field, Null);
            match value
            case Err(fault) => Raised(fault)
            case Ok(v) => Blocks([JsonText(Obj(map["contact_id" := contact, "field" := Str(field), "value" := v]))])
  }

  /** `handle_zendesk_sell_tool`: the six record tools, then the field tools; any other name yields no blocks. */
  function SellTool(oracle: Oracle, env: Env, name: string, args: map<string, Value>): Run {
    if name in Searches then
      Answer(SellRequest(oracle, env, Searches[name], Some(SearchParams(args))))
    else if name in Lookups then
      var (collection, key) := Lookups[name];
      var id := Lookup(args, key, Null);
      if !Truthy(id) then Refuse("Error: " + key + " is required")
      else Answer(SellRequest(oracle, env, collection + "/" + Format(id), None))
    else
      match FindField(FieldTools, name)
      case None => Run(Blocks([]), [])
      case Some(field) =>
        var contact := Lookup(args, "contact_id", Null);
        if !Truthy(contact) then Refuse("Error: contact_id is required")
        else
          var x := SellRequest(oracle, env, "contacts/" + Format(contact), None);
          Run(FieldReport(x.value, contact, field), x.calls)
  }

  /** The branch order of the handler is immaterial: no name belongs to two groups. */
  lemma GroupsDisjoint()
    ensures Searches.Keys !! Lookups.Keys
    ensures forall name :: name in Searches || name in Lookups ==> name !in DispatchedFieldTools()
  {
  }

  /**
   A get-by-id or field tool with a falsy id answers "Error: <x>_id is
   required" without a request, whether or not a token is configured. With a
   token, a search sends every non-None argument as its query, and a tool
   with an id asks for that one record.
   */
  lemma RecordRequests(oracle: Oracle, env: Env, name: string, args: map<string, Value>)
    ensures name in Searches && Authorization(env).Some? ==>
              SellTool(oracle, env, name, args).calls == [SentRequest(env, Searches[name], Some(SearchParams(args)))]
    ensures name in Lookups && !Truthy(Lookup(args, Lookups[name].1, Null)) ==>
              SellTool(oracle, env, name, args) == Refuse("Error: " + Lookups[name].1 + " is required")
    ensures name in Lookups && Truthy(Lookup(args, Lookups[name].1, Null)) && Authorization(env).Some? ==>
              SellTool(oracle, env, name, args).calls
              == [SentRequest(env, Lookups[name].0 + "/" + Format(args[Lookups[name].1]), None)]
    ensures name in DispatchedFieldTools() && !Truthy(Lookup(args, "contact_id", Null)) ==>
              SellTool(oracle, env, name, args) == Refuse("Error: contact_id is required")
    ensures name in DispatchedFieldTools() && Truthy(Lookup(args, "contact_id", Null)) && Authorization(env).Some? ==>
              SellTool(oracle, env, name, args).calls == [SentRequest(env, "contacts/" + Format(args["contact_id"]), None)]
  {
    GroupsDisjoint();
  }

  /** The advertised names are the six record tools followed by the dispatched field tools. */
  lemma AdvertisedNames(name: string)
    ensures name in ToolNames() <==> name in Searches || name in Lookups || name in DispatchedFieldTools()
  {
    FieldToolNamesMatch();
    var names := ToolNames();
    var records := ["search_zendesk_sell_leads", "get_zendesk_sell_lead", "search_zendesk_sell_contacts",
                    "get_zendesk_sell_contact", "search_zendesk_sell_deals", "get_zendesk_sell_deal"];
    assert names == records + DispatchedFieldTools();
    assert name in records <==> name in Searches || name in Lookups;
  }

  /** A name is handled exactly when it belongs to one of the handler's groups. */
  lemma HandledGroups(oracle: Oracle, env: Env, name: string, args: map<string, Value>)
    ensures (name in Searches || name in Lookups || FindField(FieldTools, name).Some?)
            <==> SellTool(oracle, env, name, args) != Run(Blocks([]), [])
  {
  }

  /** Every advertised name is handled; every other name yields an empty list without a request. */
  lemma AdvertisedNamesHandled(oracle: Oracle, env: Env, name: string, args: map<string, Value>)
    ensures name in ToolNames() <==> SellTool(oracle, env, name, args) != Run(Blocks([]), [])
  {
    AdvertisedNames(name);
    HandledGroups(oracle, env, name, args);
    assert FindField(FieldTools, name).Some? <==> name in DispatchedFieldTools();
  }
}
